=== FILE: README.md ===
# Backtester core in Dafny

This project models the core of a small Python trading backtester and proves properties of the model. The model covers:

- the `ExecutionEngine`, which builds a per-timestamp ticker book from market data and gives every strategy its own portfolio of 1,000,000;
- the engine's `run`, which feeds each strategy the ticks in timestamp order, turns every signal into an `Order`, and executes it against that strategy's portfolio;
- the two strategies: the moving-average crossover and the buy-once benchmark `LongOnlyOnce`;
- `trace_portfolio_log`, which replays filled orders into portfolio snapshots;
- `build_portfolio_timeseries`, which turns one strategy's orders into a daily cash and valuation table.

Every operation is a pure function over immutable datatypes. Modules follow the source files:

| module | file | source |
|---|---|---|
| `Results` | `results.dfy` | `Result`/`Option` for the exceptions the source raises |
| `Times` | `times.dfy` | timestamps, and `sorted` over a set of timestamps |
| `Models` | `models.dfy` | `src/models.py` and the signal tuples |
| `Accounting` | `accounting.dfy` | `execute_order` of `src/engine.py` |
| `Engine` | `engine.dfy` | the rest of `src/engine.py` |
| `Crossover` | `crossover.dfy` | `MovingAverageCrossoverStrategy` of `src/strategies.py` |
| `Benchmark` | `benchmark.dfy` | `LongOnlyOnce` of `src/BenchmarkStrategy.py` |
| `Reporting` | `reporting.dfy` | `trace_portfolio_log` of `src/reporting.py` |
| `Comparison` | `comparison.dfy` | `build_portfolio_timeseries` of `src/StrategyComparison.py` |

Modelling choices:

- Money, prices, quantities and volumes are `real`. Timestamps are `int`; only their order matters.
- `round(x, 4)` is exact round-half-to-even on reals (`Accounting.Round4`): a value exactly halfway between two grid points goes to the one whose last digit is even.
- Exceptions are `Err` values:
  - `OrderError` and `ExecutionError` carry the reason.
  - The engine's uncaught `KeyError` is `Engine.Fatal`.
  - The replay's `KeyError` and `ZeroDivisionError` are `Reporting.ReplayError`.
- A strategy is a step function `(S, T) -> (S, seq<Signal>)` from its private state and a tick.
  - `Engine` is generic over the state type `S` and the tick type `T`.
  - `Crossover.Generate` and `Benchmark.Step` are the two concrete steps. `Crossover.Generate` is `Crossover.Step` on the states whose windows are at least 1.
  - `Crossover.Run` and `Benchmark.Signals` are proved equal to the engine's `GenerateSignals` on those steps, so their lemmas are about what `run` processes.
- Python dictionaries iterate in insertion order, so an ordered dictionary of strategies or timestamps is a sequence of pairs.
- Where `src/models.py` and `src/engine.py` disagree about `Order`, the model follows the call site (see "Left out").
- The crossover strategy keeps one price history shared by every symbol, as the source does.

## Model

| member | source | states |
|---|---|---|
| Models.NewOrder | src/models.py:28-42 | Construction succeeds exactly for a positive quantity, a positive price, a non-empty symbol and a status among the three enumeration values. The checks run in that order and the first failure is reported. A built order is valid and holds its arguments unchanged. |
| Models.OrderRoundTrip | src/models.py:38-42 | Rebuilding any valid order from its own fields gives back the same order. |
| Models.ActionNotValidated | src/models.py:28-42 | Any action string, including one outside BUY/SELL/HOLD, is stored as given when the other fields are valid. |
| Models.Unpack | src/engine.py:95 | A signal tuple unpacks into a signal exactly when it has five fields, and packing the result gives the tuple back. |
| Models.UnpackPack | src/engine.py:95 | Every signal survives packing into a five-field tuple and unpacking again. |
| Accounting.Fresh | src/engine.py:15-22 | A new portfolio holds the initial capital, no positions and zero earnings. |
| Accounting.Round4 | src/engine.py:50 | The rounded value lies on the 0.0001 grid, within half a step of its input, and is non-negative for a non-negative input. At a tie it is the even neighbour. |
| Accounting.Round4OnGrid | src/engine.py:50 | A value already on the 0.0001 grid is left unchanged by rounding. |
| Accounting.ExecuteOrder | src/engine.py:39-84 | An order is rejected exactly when it is a BUY costing more than the capital, or a SELL with no position or too few units. Each rejection carries its reason and figures and leaves nothing changed. A HOLD or other action is returned untouched. A BUY lowers capital and earnings by price times quantity, adds the units, and sets the average to the rounded weighted average. A SELL raises capital and earnings by the same amount, removes the units, and resets the average to 0 exactly when the position empties. Every trade becomes FILLED and no other symbol changes. |
| Accounting.ExecutePreservesConsistency | src/engine.py:41-71 | Executing a valid order keeps a portfolio consistent: capital stays non-negative, positions stay non-negative, earnings stay equal to capital minus the initial capital, and an empty position has average 0. |
| Accounting.BuyThenSell | src/engine.py:41-71 | Buying units of a symbol not held and selling the same units leaves a flat position with average 0. Capital and earnings move by the difference of the two amounts. |
| Accounting.FirstBuyAverage | src/engine.py:43-50 | The first purchase of a symbol creates a position of that quantity whose average is the rounded price. |
| Engine.UpdateTickerBook | src/engine.py:24-29 | Loading market data never removes an entry or changes its orders, and every entry it creates starts with no orders. |
| Engine.UpdateTickerBookContents | src/engine.py:24-29 | Loading market data appends every point, in order, to the entry of the timestamp it is listed under. An entry is created only for a timestamp with at least one point; new entries hold no orders and existing entries keep theirs. |
| Engine.NewEngine | src/engine.py:8-29 | A constructed engine has one fresh 1,000,000 portfolio per strategy name, a ticker book holding exactly the loaded points, no recorded orders, and an empty order log. The source's constructor creates no log at all; `run` creates it (src/engine.py:87). |
| Engine.Dispatch | src/engine.py:31-37 | Every dispatched tick is one of the points the book holds for the timestamp it is dispatched under. |
| Engine.Ticks | src/engine.py:31-37 | The strategy is handed one tick per dispatched entry, and each is a point the book holds for that entry's timestamp. |
| Engine.DispatchAt | src/engine.py:31-37 | The ticks dispatched for a timestamp are exactly that timestamp's points, in arrival order. |
| Engine.DispatchAscending | src/engine.py:31-37 | Ticks are dispatched in ascending timestamp order. |
| Engine.TicksSameData | src/engine.py:31-37 | The ticks handed to a strategy depend only on the book's market data, never on the orders recorded in it. |
| Engine.GenerateSignals | src/engine.py:31-37 | A strategy is asked once per dispatched tick and yields one signal list per tick. |
| Engine.OrderFor | src/engine.py:97 | The order built from a signal carries the signal's fields, the strategy's name and status UNFILLED. It is built exactly when quantity and price are positive and the symbol is non-empty, so the status check never fails. |
| Engine.Step | src/engine.py:94-104 | A signal yields a filled order exactly when it builds a valid order with action BUY or SELL that is not rejected. The filled order is that order with status FILLED, and the new portfolio is the one `execute_order` returns for it. Otherwise the signal is skipped and the portfolio is unchanged. |
| Engine.Trades | src/engine.py:94-104 | One strategy's signals fill at most one order each. Every fill is a valid FILLED BUY or SELL owned by that strategy. No position goes negative. |
| Engine.ProcessSignal | src/engine.py:54-78 | Inside `run`'s loop, a skipped signal changes nothing. A fill is recorded in the strategy's portfolio, the book entry of its timestamp and the order log. Recording fails, ending the run, exactly when the fill's timestamp has no book entry. |
| Engine.RunStrategyIsTrades | src/engine.py:93-104 | Running one strategy completes exactly when every fill's timestamp is in the book. It then equals the strategy's own accounting: only that portfolio changes, and the log and book entries grow by exactly its fills in order. |
| Engine.RunStrategy | src/engine.py:94-104 | Processing one strategy's signals, when it completes, keeps the set of portfolios, leaves no short position and leaves each timestamp's ticks as they were. |
| Engine.RunAll | src/engine.py:88-104 | Running the strategies in declaration order, when it completes, keeps the set of portfolios, leaves no short position and leaves each timestamp's ticks as they were. |
| Engine.Run | src/engine.py:86-104 | A completed run keeps one portfolio per strategy and leaves no short position. Because the log is cleared first, afterwards it holds only valid FILLED BUY and SELL orders of the strategies just run, whatever it held before. |
| Engine.TradesConsistent | src/engine.py:94-104 | One strategy's signal stream keeps its portfolio consistent. |
| Engine.RunAllConsistent | src/engine.py:86-104 | A completed run keeps every strategy's portfolio consistent. |
| Engine.RunAllLog | src/engine.py:86-104 | A completed run only appends to the log, and only valid FILLED BUY or SELL orders of the strategies that ran. |
| Engine.RunFromNewEngine | src/engine.py:86-104 | A run from a freshly constructed engine leaves every portfolio consistent with 1,000,000 of starting capital. Its log consists only of filled BUY and SELL orders of the strategies run. |
| Times.Sorted | src/engine.py:33 | The sorted keys are strictly increasing and hold exactly the set's elements. |
| Crossover.Init | src/strategies.py:10-13 | A new crossover strategy stores both windows as given and starts with an empty price history. |
| Crossover.DefaultWarmUp | src/strategies.py:10-21 | With the default windows 5 and 20, the strategy can be called, and the first 19 ticks yield no signal. |
| Crossover.Decide | src/strategies.py:19-26 | The crossover rule emits only BUY or SELL, never HOLD. |
| Crossover.Step | src/strategies.py:15-28 | Each call appends the tick's price to the history and emits at most one signal, and none while the history is shorter than the long window. A signal carries the tick's timestamp, symbol and price and a quantity of 100. It is a BUY exactly when the short-window mean exceeds the long-window mean, and a SELL exactly when it falls below. Every signal is a BUY or a SELL, and equal means give no signal. |
| Crossover.StepAsWritten | src/strategies.py:15-28 | The strategy as written emits only four-field tuples. |
| Crossover.AsWrittenIsStep | src/strategies.py:15-28 | The strategy as written and the corrected one keep the same history and emit the same signals, except that the written tuples lack the timestamp. |
| Crossover.AsWrittenSignalCannotBeUnpacked | src/strategies.py:24-26 | With windows 1 and 2, a history of [1.0] and a tick at 2.0, the strategy as written emits a BUY tuple without a timestamp, which the engine's five-name unpacking rejects. |
| Crossover.StepSignalsUnpack | src/engine.py:95 | Every signal of the corrected strategy unpacks to itself and carries the tick's timestamp. |
| Crossover.Last | src/strategies.py:20-21 | The trailing slice holds the last `k` prices, or all of them when there are fewer. |
| Crossover.Run | src/strategies.py:15-28 | Feeding ticks in order gives one signal list per tick and keeps the windows. |
| Crossover.EngineRunsCrossover | src/engine.py:31-37 | The engine's `generate_signals` over the crossover strategy gives the same final state and per-tick signals as `Crossover.Run`. |
| Crossover.RunHistory | src/strategies.py:16 | After any run, the history is the old history followed by every tick's price, in order. |
| Crossover.RunWarmUp | src/strategies.py:19 | No call emits a signal while the history, including the current price, is shorter than the long window. |
| Crossover.MeanConstant | src/strategies.py:20-21 | Over a history of one repeated price, every trailing mean is that price. |
| Crossover.ConstantHistoryNoSignal | src/strategies.py:20-26 | Over a constant history the two means are equal, so no signal is emitted. |
| Crossover.ConstantStreamSilent | src/strategies.py:15-28 | A stream of ticks at one constant price never produces a signal. |
| Benchmark.Init | src/BenchmarkStrategy.py:5-6 | The benchmark starts having seen no symbol. |
| Benchmark.Step | src/BenchmarkStrategy.py:8-20 | Each tick marks its symbol as seen and yields at most one signal of one unit at the tick's close. On a symbol's first tick the signal is a BUY, emitted exactly when one unit is under a tenth of the volume. Every later tick yields exactly one HOLD. |
| Benchmark.Signals | src/BenchmarkStrategy.py:8-20 | Over any tick sequence no SELL is emitted, and every signal names a symbol among the ticks. |
| Benchmark.EngineRunsBenchmark | src/engine.py:31-37 | The engine's `generate_signals` over the benchmark, flattened in processing order, is `Benchmark.Signals`. |
| Benchmark.AtMostOneBuy | src/BenchmarkStrategy.py:11-14 | Over any tick sequence each symbol gets at most one BUY, and a symbol already seen gets none. |
| Benchmark.SymbolsIndependent | src/BenchmarkStrategy.py:6-16 | The signals for one symbol are those of a run over that symbol's ticks alone, so other symbols' ticks never change them. |
| Reporting.Replay | src/reporting.py:36-55 | A BUY lowers capital and earnings by its amount and adds its units, with no capital check, and keeps total cost consistent through an unrounded average. A SELL fails when the symbol was never bought. Otherwise it raises capital and earnings, removes the units, and zeroes the average when the position empties. A BUY fails only when the new quantity is 0. Any other action changes nothing. Earnings minus capital never moves. |
| Reporting.Trace | src/reporting.py:36-63 | The log has one snapshot per order, each naming its order in sequence. Every snapshot keeps earnings minus capital at its starting value. An error on the first order is the result, and otherwise the first snapshot is the replay of the first order. Each later snapshot is the replay of its order from the snapshot before it, and a failure on any later order is the result. |
| Reporting.TracePortfolioLog | src/reporting.py:25-65 | The log fails exactly when some strategy's replay fails. The error is the one raised by the first failing strategy in iteration order. Otherwise it has one entry per strategy, each the replay of that strategy's orders from a fresh portfolio holding the initial capital. |
| Reporting.ReplayAgrees | src/reporting.py:37-55 | Replaying an order the engine filled gives the same capital, earnings, symbols and quantities as the engine's step. |
| Reporting.TraceOfTrades | src/reporting.py:36-63 | Replaying one strategy's fills never fails, and the last snapshot agrees with the engine's final portfolio. |
| Reporting.FreshTraceOfTrades | src/reporting.py:28-63 | The log of a strategy's fills, started from the engine's capital, ends in the engine's capital, earnings and quantities. |
| Comparison.OfStrategy | src/StrategyComparison.py:32 | The filter keeps exactly the orders of the named strategy, each as often as it occurs. |
| Comparison.OfStrategyIdempotent | src/StrategyComparison.py:32 | Filtering twice by the same strategy is filtering once. |
| Comparison.Symbols | src/StrategyComparison.py:41 | The tickers are distinct and are exactly the symbols the strategy's orders name. |
| Comparison.PriceOnLastBar | src/StrategyComparison.py:64-67 | A symbol's price on a date is the adjusted close of its last bar that day, or 0.0 when it has none. |
| Comparison.Within | src/StrategyComparison.py:51-55 | An order counts toward a set of dates exactly when its timestamp is one of them. |
| Comparison.WithinKeepsRepeats | src/StrategyComparison.py:54-55 | Every occurrence of an order stamped with one of the dates is kept, so two equal orders both count. |
| Comparison.ApplyDay | src/StrategyComparison.py:53-61 | A date's pass moves cash and each symbol's units by exactly the net amount of the orders stamped that date. |
| Comparison.Mark | src/StrategyComparison.py:62-69 | A row carries its date and the cash. Each traded symbol's column is its units times the date's price, and the total is cash plus the sum of the columns. |
| Comparison.BuildPortfolioTimeseries | src/StrategyComparison.py:30-70 | The table has the initial row plus one row per date key. The initial row holds the initial capital as cash and total, with every traded symbol at 0. The other rows follow the keys in ascending order, each with one column per traded symbol. |
| Comparison.Days | src/StrategyComparison.py:51-70 | The loop over dates yields one row per date, in the given order, each carrying its date and one column per traded symbol. |
| Comparison.DaysFollowNet | src/StrategyComparison.py:51-70 | Each row is the valuation of the starting ledger moved by every order stamped with that date or an earlier one. |
| Comparison.TimeseriesIsNetLedger | src/StrategyComparison.py:51-70 | Row k+1 values, at date k's prices, the initial capital with no units moved by the strategy's orders stamped on or before date k. Orders of other strategies, and orders stamped with a date that is not a key, never count. |
| Comparison.NoOrdersFlat | src/StrategyComparison.py:38-70 | A strategy without orders has cash and total equal to the initial capital on every row, and no columns. |
| Comparison.OtherStrategiesIgnored | src/StrategyComparison.py:32 | The table depends only on the named strategy's orders. |

## Left out

- `Order` arity: `src/models.py:28` takes `symbol, quantity, price, status, action`, but `src/engine.py:97` passes a timestamp and a strategy name as well. The model's `Order` has all seven fields of the call site and keeps the validation of `src/models.py:29-36`.
- Accounting.Round4: Python's `round` acts on IEEE-754 doubles. The model rounds the exact real half-to-even, so float representation error is not modelled. This applies to every real-valued quantity.
- Accounting.ExecuteOrder: requires a positive quantity and no short position. Only constructed orders reach it, so the division by zero that a zero quantity would cause at `src/engine.py:50` is never reached.
- Engine.Run: the strategies' own state after a run is not returned. In the source, strategies are mutable objects that `run` advances in place (src/strategies.py:16, src/BenchmarkStrategy.py:12). A second `run` on the same engine therefore continues from the advanced state; for example, `LongOnlyOnce` then emits HOLD instead of a repeated BUY. One strategy object registered under two names is likewise advanced by both passes. The model starts every pass from the state in the strategy list it is given, so those two cases are not modelled. As in the source, a second run clears the global order log but keeps the portfolios and the orders recorded in the ticker book.
- Engine.RunAll: the same applies to each pass over the strategy list.
- Engine.NewEngine: the constructor in the source (src/engine.py:8-13) never assigns `orders`; the attribute first exists once `run` sets it to an empty list (src/engine.py:87). Before any run, reading `engine.orders` or calling `execute_order` directly, which appends to it (src/engine.py:59), raises `AttributeError`. The model's empty log stands in for that missing attribute, so that `AttributeError` is not modelled. `Engine.Run` clears the log anyway, so completed runs are unaffected.
- Engine.ProcessSignal: when a fill's timestamp has no book entry, the source has already changed the portfolio before the `KeyError`. The model returns only the error, because the run ends there.
- Crossover.Step: requires both windows to be at least 1, and `Crossover.Generate` is defined only on such states. A window of 0 raises `ZeroDivisionError` in the source, and a negative window slices from the front of the history; neither is modelled.
- Reporting.TracePortfolioLog: requires distinct strategy names, which a dictionary guarantees.
- Comparison.BuildPortfolioTimeseries: the final `pd.DataFrame(...).set_index("date").sort_index()` is not modelled. The rows are in construction order, so if the start date falls after some date keys the first row is not re-sorted. The source also keeps cash and holdings in one string-keyed dictionary, and each row is one dictionary keyed by `"date"`, `"cash"`, `"total_value"` and the symbols (src/StrategyComparison.py:39-49, 52-69). A traded symbol named `"cash"`, `"date"` or `"total_value"` therefore overwrites that field. For example, a symbol `"cash"` resets the running cash to 0.0 and then moves it by both units and notional. The model keeps cash, date, total and the symbol columns apart, so for such a symbol its rows, and the statements of `Mark`, `Days` and `TimeseriesIsNetLedger`, describe the intended table, not the overwritten one.
- Comparison.TimeseriesIsNetLedger: states each row as `Mark` of the net ledger. The column values follow from `Mark` and `NetLedger`; the lemma does not restate them one by one.
- The default `initial_capital` arguments of `trace_portfolio_log` (100000.0) and `build_portfolio_timeseries` (1,000,000) are not modelled: both functions take the capital as an argument. The two defaults differ, and the agreement lemmas assume the engine's capital is passed in.
- Message text of `OrderError` and `ExecutionError`, and every `print`: output only.
- `PriceLoader`, `data_loader`, `main`, `executed_orders`, `limited_period_total500` and the `__main__` blocks: file, network and driver code.
- `compute_performance`: numpy float statistics with a hard-coded symbol, outside the core.
- `src/reporting2.py`: its `build_portfolio_timeseries` is the same logic as the one modelled.
- `pd.to_datetime`: dates are modelled as ordered integers.

## Findings

| source | as written | input that shows it | evidently intended | confidence | as-written member | corrected member |
|---|---|---|---|---|---|---|
| src/strategies.py:24-26 | The crossover strategy emits four-field tuples `(action, symbol, 100, price)`, but `run` unpacks five names `t, action, symbol, quantity, price` (src/engine.py:95). | Windows 1 and 2, history [1.0], a tick at price 2.0: the strategy emits `("BUY", "AAPL", 100, 2.0)` and the unpacking raises `ValueError`, which `run` does not catch. | Lead the tuple with `tick.timestamp`, as `LongOnlyOnce` does. | not executed | Crossover.AsWrittenSignalCannotBeUnpacked | Crossover.StepSignalsUnpack |

=== FILE: accounting.dfy ===
/** Per-strategy portfolio accounting: `ExecutionEngine.execute_order` of
    `src/engine.py`, as a pure step from an order and a portfolio to the
    filled order and the new portfolio, or to the `ExecutionError` raised. */
module Accounting {
  import opened Results
  import opened Models

  /** Starting capital of every strategy's portfolio (`initalize_portfolio`). */
  const INITIAL_CAPITAL: real := 1000000.0

  datatype Position = Position(quantity: real, avgPrice: real)

  /** `earnings` is the net realised cash flow: buys negative, sells positive. */
  datatype Portfolio = Portfolio(capital: real, positions: map<string, Position>, earnings: real)

  /** A portfolio as `initalize_portfolio` creates it. */
  function Fresh(initial: real): (p: Portfolio)
    ensures p.capital == initial && p.earnings == 0.0 && p.positions == map[]
  {
    Portfolio(initial, map[], 0.0)
  }

  /** The quantity held of `symbol`; a missing position holds nothing. */
  function Held(p: Portfolio, symbol: string): real {
    if symbol in p.positions then p.positions[symbol].quantity else 0.0
  }

  /** The average cost of `symbol`; a missing position starts at 0.0. */
  function AvgCost(p: Portfolio, symbol: string): real {
    if symbol in p.positions then p.positions[symbol].avgPrice else 0.0
  }

  predicate NonNegativePositions(p: Portfolio) {
    forall s :: s in p.positions ==> p.positions[s].quantity >= 0.0
  }

  /** The state every portfolio keeps: cash never negative, no short
      position, the average reset on a flat position, and earnings equal to
      the capital gained or lost since the start. */
  predicate Consistent(p: Portfolio, initial: real) {
    && p.capital >= 0.0
    && p.earnings == p.capital - initial
    && NonNegativePositions(p)
    && (forall s :: s in p.positions ==> p.positions[s].avgPrice >= 0.0)
    && (forall s :: s in p.positions && p.positions[s].quantity == 0.0 ==> p.positions[s].avgPrice == 0.0)
  }

  /** Every position other than `symbol`'s is as it was. */
  predicate OthersUnchanged(p: Portfolio, q: Portfolio, symbol: string) {
    && p.positions.Keys - {symbol} == q.positions.Keys - {symbol}
    && (forall s :: s != symbol && s in p.positions ==> s in q.positions && q.positions[s] == p.positions[s])
  }

  /** Python's `round(x, 4)` on the exact value: round half to even at the
      fourth decimal place. */
  function Round4(x: real): (r: real)
    ensures (r * 10000.0).Floor as real == r * 10000.0
    ensures x - 0.00005 <= r <= x + 0.00005
    ensures x >= 0.0 ==> r >= 0.0
    ensures var y := x * 10000.0;
      y - y.Floor as real == 0.5 ==> (r * 10000.0).Floor % 2 == 0
  {
    var y := x * 10000.0;
    var f := y.Floor;
    var frac := y - f as real;
    var n := if frac < 0.5 then f
             else if frac > 0.5 then f + 1
             else if f % 2 == 0 then f
             else f + 1;
    n as real / 10000.0
  }

  /** A value already on the 0.0001 grid is left alone by `Round4`. */
  lemma Round4OnGrid(n: int)
    ensures Round4(n as real / 10000.0) == n as real / 10000.0
  {
    var y := (n as real / 10000.0) * 10000.0;
    assert y == n as real;
    assert y.Floor == n;
  }

  /** The kinds of `ExecutionError`, with the figures its message reports. */
  datatype ExecError =
    | InsufficientCapital(symbol: string, available: real, required: real)
    | NoPosition(symbol: string)
    | InsufficientQuantity(symbol: string, requested: real, available: real)

  /** The order as returned by `execute_order` and the portfolio after it. */
  datatype Execution = Execution(order: Order, portfolio: Portfolio)

  predicate IsBuy(o: Order) { o.action == BUY.Value() }
  predicate IsSell(o: Order) { o.action == SELL.Value() }

  /** The two actions `execute_order` acts on; any other is a no-op. */
  predicate IsTrade(o: Order) { IsBuy(o) || IsSell(o) }

  function Notional(o: Order): real { o.price * o.quantity }

  /** The average cost of the position after buying `o`, before rounding. */
  function WeightedAverage(p: Portfolio, o: Order): real
    requires o.quantity > 0.0
    requires NonNegativePositions(p)
  {
    (AvgCost(p, o.symbol) * Held(p, o.symbol) + Notional(o)) / (Held(p, o.symbol) + o.quantity)
  }

  /** The conditions under which `execute_order` raises. */
  predicate Rejects(o: Order, p: Portfolio) {
    || (IsBuy(o) && p.capital < Notional(o))
    || (IsSell(o) && (o.symbol !in p.positions || p.positions[o.symbol].quantity < o.quantity))
  }

  /** `execute_order`. A rejected order leaves nothing behind: the error
      carries no portfolio, so the caller keeps the one it had. */
  function ExecuteOrder(o: Order, p: Portfolio): (r: Result<Execution, ExecError>)
    requires o.quantity > 0.0
    requires NonNegativePositions(p)
    ensures r.Err? <==> Rejects(o, p)
    ensures r.Err? && IsBuy(o) ==> r.error == InsufficientCapital(o.symbol, p.capital, Notional(o))
    ensures r.Err? && IsSell(o) && o.symbol !in p.positions ==> r.error == NoPosition(o.symbol)
    ensures r.Err? && IsSell(o) && o.symbol in p.positions
            ==> r.error == InsufficientQuantity(o.symbol, o.quantity, Held(p, o.symbol))
    ensures r.Ok? && !IsTrade(o) ==> r.value == Execution(o, p)
    ensures r.Ok? && IsTrade(o) ==> r.value.order == o.(status := FILLED.Value())
    ensures r.Ok? && IsTrade(o) ==> o.symbol in r.value.portfolio.positions
    ensures r.Ok? ==> NonNegativePositions(r.value.portfolio)
    ensures r.Ok? ==> OthersUnchanged(p, r.value.portfolio, o.symbol)
    ensures r.Ok? && IsBuy(o) ==>
      && r.value.portfolio.capital == p.capital - Notional(o)
      && r.value.portfolio.earnings == p.earnings - Notional(o)
      && Held(r.value.portfolio, o.symbol) == Held(p, o.symbol) + o.quantity
    ensures r.Ok? && IsBuy(o) ==>
      AvgCost(r.value.portfolio, o.symbol) == Round4(WeightedAverage(p, o))
    ensures r.Ok? && IsSell(o) ==>
      && r.value.portfolio.capital == p.capital + Notional(o)
      && r.value.portfolio.earnings == p.earnings + Notional(o)
      && Held(r.value.portfolio, o.symbol) == Held(p, o.symbol) - o.quantity
      && AvgCost(r.value.portfolio, o.symbol)
         == (if Held(r.value.portfolio, o.symbol) == 0.0 then 0.0 else AvgCost(p, o.symbol))
  {
    var notional := Notional(o);
    if IsBuy(o) then
      if p.capital >= notional then
        // a missing position is created as quantity 0, average 0.0
        var quantity := Held(p, o.symbol) + o.quantity;
        var avg := Round4(WeightedAverage(p, o));
        var q := Portfolio(p.capital - notional, p.positions[o.symbol := Position(quantity, avg)], p.earnings - notional);
        Ok(Execution(o.(status := FILLED.Value()), q))
      else
        Err(InsufficientCapital(o.symbol, p.capital, notional))
    else if IsSell(o) then
      if o.symbol in p.positions then
        var pos := p.positions[o.symbol];
        if pos.quantity >= o.quantity then
          var quantity := pos.quantity - o.quantity;
          var avg := if quantity == 0.0 then 0.0 else pos.avgPrice;
          var q := Portfolio(p.capital + notional, p.positions[o.symbol := Position(quantity, avg)], p.earnings + notional);
          Ok(Execution(o.(status := FILLED.Value()), q))
        else
          Err(InsufficientQuantity(o.symbol, o.quantity, pos.quantity))
      else
        Err(NoPosition(o.symbol))
    else
      Ok(Execution(o, p))
  }

  /** Executing a valid order keeps a consistent portfolio consistent. */
  lemma ExecutePreservesConsistency(o: Order, p: Portfolio, initial: real)
    requires Valid(o)
    requires Consistent(p, initial)
    requires ExecuteOrder(o, p).Ok?
    ensures Consistent(ExecuteOrder(o, p).value.portfolio, initial)
  {
    var q := ExecuteOrder(o, p).value.portfolio;
    if IsBuy(o) {
      var held := Held(p, o.symbol);
      var cost := AvgCost(p, o.symbol);
      assert cost >= 0.0 && held >= 0.0;
      NonNegativeAverage(p, o);
      assert AvgCost(q, o.symbol) >= 0.0;
      assert q.positions[o.symbol].quantity > 0.0;
    }
  }

  /** The average after a purchase at a positive price is not negative. */
  lemma NonNegativeAverage(p: Portfolio, o: Order)
    requires o.quantity > 0.0 && o.price > 0.0 && NonNegativePositions(p)
    requires AvgCost(p, o.symbol) >= 0.0
    ensures WeightedAverage(p, o) >= 0.0
  {
    var cost := AvgCost(p, o.symbol);
    var held := Held(p, o.symbol);
    assert held >= 0.0;
    assert cost * held >= 0.0;
    assert Notional(o) > 0.0;
  }

  /** Buying `qty` of a symbol not held and selling the same `qty` again
      leaves a flat position with a zero average and moves capital and
      earnings by the price difference. */
  lemma BuyThenSell(p: Portfolio, buy: Order, sell: Order)
    requires NonNegativePositions(p)
    requires buy.quantity > 0.0 && IsBuy(buy) && IsSell(sell)
    requires sell.symbol == buy.symbol && sell.quantity == buy.quantity
    requires buy.symbol !in p.positions
    requires p.capital >= Notional(buy)
    ensures ExecuteOrder(buy, p).Ok?
    ensures ExecuteOrder(sell, ExecuteOrder(buy, p).value.portfolio).Ok?
    ensures var q := ExecuteOrder(sell, ExecuteOrder(buy, p).value.portfolio).value.portfolio;
      && q.capital == p.capital - Notional(buy) + Notional(sell)
      && q.earnings == p.earnings - Notional(buy) + Notional(sell)
      && q.positions[buy.symbol] == Position(0.0, 0.0)
  {
  }

  /** The first purchase of a symbol sets its average to the rounded price. */
  lemma FirstBuyAverage(o: Order, p: Portfolio)
    requires o.quantity > 0.0 && IsBuy(o)
    requires NonNegativePositions(p)
    requires o.symbol !in p.positions
    requires p.capital >= Notional(o)
    ensures ExecuteOrder(o, p).Ok?
    ensures ExecuteOrder(o, p).value.portfolio.positions[o.symbol] == Position(o.quantity, Round4(o.price))
  {
    assert Held(p, o.symbol) == 0.0 && AvgCost(p, o.symbol) == 0.0;
    CancelQuantity(o.price, o.quantity);
    assert WeightedAverage(p, o) == o.price;
  }

  /** Dividing a notional by its quantity gives back the price. */
  lemma CancelQuantity(price: real, quantity: real)
    requires quantity > 0.0
    ensures (0.0 * 0.0 + price * quantity) / (0.0 + quantity) == price
  {
    assert 0.0 * 0.0 + price * quantity == price * quantity;
    assert (price * quantity) / quantity == price;
  }
}

=== FILE: benchmark.dfy ===
/** `LongOnlyOnce` of `src/BenchmarkStrategy.py`: buy one unit of each
    symbol the first time it is seen (if volume allows), then hold. */
module Benchmark {
  import opened Models
  import opened Seqs
  import Engine

  /** The symbols already seen (the keys of `__hasBought`). */
  datatype State = State(seen: set<string>)

  /** The quantity of every signal. */
  const LOT: real := 1.0

  function Init(): (st: State)
    ensures st.seen == {}
  {
    State({})
  }

  /** Whether the first tick's volume allows the purchase: the lot must be
      under a tenth of the volume. */
  predicate Liquid(bar: PriceBar) {
    LOT < 0.1 * bar.volume
  }

  /** `generate_signals`. */
  function Step(st: State, bar: PriceBar): (r: (State, seq<Signal>))
    ensures r.0.seen == st.seen + {bar.symbol}
    ensures |r.1| <= 1
    ensures forall s :: s in r.1 ==>
      s.timestamp == bar.timestamp && s.symbol == bar.symbol && s.quantity == LOT && s.price == bar.close
    ensures bar.symbol !in st.seen ==>
      (r.1 != [] <==> Liquid(bar)) && forall s :: s in r.1 ==> s.action == BUY.Value()
    ensures bar.symbol in st.seen ==> |r.1| == 1 && r.1[0].action == HOLD.Value()
  {
    if bar.symbol !in st.seen then
      var st' := State(st.seen + {bar.symbol});
      if Liquid(bar) then (st', [Signal(bar.timestamp, BUY.Value(), bar.symbol, LOT, bar.close)])
      else (st', [])
    else
      (st, [Signal(bar.timestamp, HOLD.Value(), bar.symbol, LOT, bar.close)])
  }

  /** The signals of a sequence of calls, concatenated in call order. */
  function Signals(st: State, bars: seq<PriceBar>): (r: seq<Signal>)
    ensures forall s :: s in r ==> s.action != SELL.Value()
    ensures forall s :: s in r ==> exists i :: 0 <= i < |bars| && s.symbol == bars[i].symbol
    decreases |bars|
  {
    if bars == [] then []
    else
      var (st1, first) := Step(st, bars[0]);
      var rest := Signals(st1, bars[1..]);
      assert forall s :: s in rest ==> exists i :: 0 <= i < |bars| && s.symbol == bars[i].symbol by {
        forall s | s in rest ensures exists i :: 0 <= i < |bars| && s.symbol == bars[i].symbol {
          var j :| 0 <= j < |bars[1..]| && s.symbol == bars[1..][j].symbol;
          assert s.symbol == bars[j + 1].symbol;
        }
      }
      first + rest
  }

  /** `Signals` is what the engine's `generate_signals` yields for the
      benchmark, flattened in processing order, so the lemmas about it are
      about what `run` processes. */
  lemma {:induction false} EngineRunsBenchmark(st: State, bars: seq<PriceBar>)
    ensures Engine.Flatten(Engine.GenerateSignals(Step, st, bars).1) == Signals(st, bars)
    decreases |bars|
  {
    if bars != [] {
      var (st1, first) := Step(st, bars[0]);
      var out := Engine.GenerateSignals(Step, st, bars).1;
      var rest := Engine.GenerateSignals(Step, st1, bars[1..]).1;
      assert out == [first] + rest;
      assert out[0] == first && out[1..] == rest;
      EngineRunsBenchmark(st1, bars[1..]);
    }
  }

  /** The BUY signals for `symbol`. */
  function Buys(sigs: seq<Signal>, symbol: string): nat {
    if sigs == [] then 0
    else (if sigs[0].action == BUY.Value() && sigs[0].symbol == symbol then 1 else 0) + Buys(sigs[1..], symbol)
  }

  lemma {:induction false} BuysAppend(a: seq<Signal>, b: seq<Signal>, symbol: string)
    ensures Buys(a + b, symbol) == Buys(a, symbol) + Buys(b, symbol)
  {
    if a == [] {
      assert a + b == b;
    } else {
      assert (a + b)[0] == a[0];
      assert (a + b)[1..] == a[1..] + b;
      BuysAppend(a[1..], b, symbol);
    }
  }

  /** At most one BUY per symbol over any tick sequence, and none at all for
      a symbol already seen. */
  lemma {:induction false} AtMostOneBuy(st: State, bars: seq<PriceBar>, symbol: string)
    ensures Buys(Signals(st, bars), symbol) <= if symbol in st.seen then 0 else 1
    decreases |bars|
  {
    if bars != [] {
      var (st1, first) := Step(st, bars[0]);
      AtMostOneBuy(st1, bars[1..], symbol);
      BuysAppend(first, Signals(st1, bars[1..]), symbol);
      if first != [] {
        assert first == [first[0]];
        assert Buys(first, symbol) == (if first[0].action == BUY.Value() && first[0].symbol == symbol then 1 else 0) + Buys([], symbol);
      }
    }
  }

  /** The signals for `symbol`, in order. */
  function For(sigs: seq<Signal>, symbol: string): seq<Signal> {
    if sigs == [] then []
    else (if sigs[0].symbol == symbol then [sigs[0]] else []) + For(sigs[1..], symbol)
  }

  /** The bars of `symbol`, in order. */
  function Only(bars: seq<PriceBar>, symbol: string): seq<PriceBar> {
    if bars == [] then []
    else (if bars[0].symbol == symbol then [bars[0]] else []) + Only(bars[1..], symbol)
  }

  lemma {:induction false} ForAppend(a: seq<Signal>, b: seq<Signal>, symbol: string)
    ensures For(a + b, symbol) == For(a, symbol) + For(b, symbol)
  {
    if a == [] {
      AppendEmpty(a, b);
    } else {
      TailOfAppend(a, b);
      ForAppend(a[1..], b, symbol);
      var h := if a[0].symbol == symbol then [a[0]] else [];
      AppendAssoc(h, For(a[1..], symbol), For(b, symbol));
    }
  }

  /** Ticks of other symbols never change the signals for `symbol`: the
      signals for it are those of the run over its own ticks alone, from any
      state that agrees on whether it was seen. */
  lemma {:induction false} SymbolsIndependent(st: State, st': State, bars: seq<PriceBar>, symbol: string)
    requires symbol in st.seen <==> symbol in st'.seen
    ensures For(Signals(st, bars), symbol) == Signals(st', Only(bars, symbol))
    decreases |bars|
  {
    if bars == [] {
    } else {
      var b := bars[0];
      var (st1, first) := Step(st, b);
      ForAppend(first, Signals(st1, bars[1..]), symbol);
      if b.symbol == symbol {
        var (st1', first') := Step(st', b);
        assert Only(bars, symbol) == [b] + Only(bars[1..], symbol);
        assert Signals(st', Only(bars, symbol)) == first' + Signals(st1', Only(bars[1..], symbol));
        SymbolsIndependent(st1, st1', bars[1..], symbol);
        assert first == first';
        if first != [] {
          assert first == [first[0]];
        }
        assert For(first, symbol) == first;
      } else {
        assert Only(bars, symbol) == Only(bars[1..], symbol);
        SymbolsIndependent(st1, st', bars[1..], symbol);
        if first != [] {
          assert first == [first[0]];
        }
        assert For(first, symbol) == [];
      }
    }
  }
}

=== FILE: comparison.dfy ===
/** `build_portfolio_timeseries` of `src/StrategyComparison.py`: the daily
    cash, per-symbol market value and total value of one strategy's fills. */
module Comparison {
  import opened Times
  import opened Models
  import Engine

  /** One row of the time series: `values` holds one column per symbol the
      strategy traded. */
  datatype Record = Record(date: Time, totalValue: real, cash: real, values: map<string, real>)

  /** The running `portfolio` dictionary: cash and units held per symbol. */
  datatype Ledger = Ledger(cash: real, holdings: map<string, real>)

  /** The orders of strategy `name`, in order. */
  function OfStrategy(orders: seq<Order>, name: string): (r: seq<Order>)
    ensures forall o :: o in r <==> o in orders && o.strategy == name
    ensures forall o :: multiset(r)[o] == if o.strategy == name then multiset(orders)[o] else 0
    ensures |r| <= |orders|
  {
    if orders == [] then []
    else
      assert orders == [orders[0]] + orders[1..];
      (if orders[0].strategy == name then [orders[0]] else []) + OfStrategy(orders[1..], name)
  }

  /** Filtering twice by the same strategy filters once. */
  lemma {:induction false} OfStrategyIdempotent(orders: seq<Order>, name: string)
    ensures OfStrategy(OfStrategy(orders, name), name) == OfStrategy(orders, name)
  {
    if orders != [] {
      var head := if orders[0].strategy == name then [orders[0]] else [];
      var tail := OfStrategy(orders[1..], name);
      OfStrategyIdempotent(orders[1..], name);
      if head == [] {
        assert OfStrategy(orders, name) == tail;
      } else {
        var r := head + tail;
        assert r[0] == orders[0] && r[1..] == tail;
      }
    }
  }

  /** Some order of `orders` names `symbol`. */
  predicate Traded(orders: seq<Order>, symbol: string) {
    exists i :: 0 <= i < |orders| && orders[i].symbol == symbol
  }

  /** The symbols of `orders`, each once, in order of first appearance
      (the source's `set`; only membership matters below). */
  function Symbols(orders: seq<Order>): (r: seq<string>)
    ensures forall i, j :: 0 <= i < j < |r| ==> r[i] != r[j]
    ensures forall s :: s in r <==> Traded(orders, s)
    ensures forall i :: 0 <= i < |orders| ==> orders[i].symbol in r
    decreases |orders|
  {
    if orders == [] then []
    else
      var init := orders[..|orders| - 1];
      var last := orders[|orders| - 1].symbol;
      var rest := Symbols(init);
      TradedSnoc(orders);
      assert forall i :: 0 <= i < |orders| ==> Traded(orders, orders[i].symbol);
      if last in rest then rest else rest + [last]
  }

  lemma TradedSnoc(orders: seq<Order>)
    requires orders != []
    ensures forall s :: Traded(orders, s) <==> s == orders[|orders| - 1].symbol || Traded(orders[..|orders| - 1], s)
  {
    var init := orders[..|orders| - 1];
    forall s ensures Traded(orders, s) <==> s == orders[|orders| - 1].symbol || Traded(init, s) {
      if Traded(init, s) {
        var i :| 0 <= i < |init| && init[i].symbol == s;
        assert orders[i].symbol == s;
      }
      if Traded(orders, s) {
        var i :| 0 <= i < |orders| && orders[i].symbol == s;
        if i < |init| { assert init[i].symbol == s; }
      }
    }
  }

  /** `bars[k]` is the last bar of `symbol`. */
  predicate LastBar(bars: seq<PriceBar>, symbol: string, k: int) {
    && 0 <= k < |bars| && bars[k].symbol == symbol
    && forall j :: k < j < |bars| ==> bars[j].symbol != symbol
  }

  /** `mp_list`: each symbol's `adj_close` among one date's bars, built in
      order so that a later bar of a symbol replaces an earlier one. */
  function PriceMap(bars: seq<PriceBar>): map<string, real>
    decreases |bars|
  {
    if bars == [] then map[]
    else PriceMap(bars[..|bars| - 1])[bars[|bars| - 1].symbol := bars[|bars| - 1].adjClose]
  }

  /** `mp_list.get(symbol, 0.0)`. */
  function Get(prices: map<string, real>, symbol: string): real {
    if symbol in prices then prices[symbol] else 0.0
  }

  /** The price of `symbol` on one date. */
  function PriceOn(bars: seq<PriceBar>, symbol: string): real {
    Get(PriceMap(bars), symbol)
  }

  /** The dictionary comprehension keeps the last bar of each symbol, and a
      symbol without a bar is valued at 0.0. */
  lemma {:induction false} PriceOnLastBar(bars: seq<PriceBar>, symbol: string)
    ensures (forall i :: 0 <= i < |bars| ==> bars[i].symbol != symbol) ==> PriceOn(bars, symbol) == 0.0
    ensures forall k :: LastBar(bars, symbol, k) ==> PriceOn(bars, symbol) == bars[k].adjClose
    decreases |bars|
  {
    if bars != [] {
      var init := bars[..|bars| - 1];
      var last := bars[|bars| - 1];
      assert PriceMap(bars) == PriceMap(init)[last.symbol := last.adjClose];
      if last.symbol != symbol {
        assert PriceOn(bars, symbol) == PriceOn(init, symbol);
        PriceOnLastBar(init, symbol);
        forall k | LastBar(bars, symbol, k) ensures LastBar(init, symbol, k) {
          assert k < |init| && init[k] == bars[k];
        }
        if forall i :: 0 <= i < |bars| ==> bars[i].symbol != symbol {
          assert forall i :: 0 <= i < |init| ==> init[i] == bars[i];
        }
      } else {
        assert PriceOn(bars, symbol) == last.adjClose;
      }
    }
  }

  /** The cash an order moves: a BUY pays `quantity * price`, a SELL
      receives it, anything else moves nothing. */
  function CashDelta(o: Order): real {
    if o.action == BUY.Value() then -(o.quantity * o.price)
    else if o.action == SELL.Value() then o.quantity * o.price
    else 0.0
  }

  /** The units of `symbol` an order moves. */
  function QtyDelta(o: Order, symbol: string): real {
    if o.symbol != symbol then 0.0
    else if o.action == BUY.Value() then o.quantity
    else if o.action == SELL.Value() then -o.quantity
    else 0.0
  }

  function QtyOf(symbol: string): Order -> real {
    o => QtyDelta(o, symbol)
  }

  /** The total of `f` over `orders`. */
  function Net(orders: seq<Order>, f: Order -> real): real {
    if orders == [] then 0.0 else f(orders[0]) + Net(orders[1..], f)
  }

  /** The orders stamped with one of `dates`, in order. */
  function Within(orders: seq<Order>, dates: seq<Time>): (r: seq<Order>)
    ensures forall o :: o in r <==> o in orders && o.timestamp in dates
  {
    if orders == [] then []
    else (if orders[0].timestamp in dates then [orders[0]] else []) + Within(orders[1..], dates)
  }

  /** Every occurrence of an order stamped with one of `dates` is kept, so
      two equal orders both count. */
  lemma {:induction false} WithinKeepsRepeats(orders: seq<Order>, dates: seq<Time>)
    ensures forall o :: multiset(Within(orders, dates))[o] == if o.timestamp in dates then multiset(orders)[o] else 0
  {
    if orders != [] {
      WithinKeepsRepeats(orders[1..], dates);
      assert orders == [orders[0]] + orders[1..];
    }
  }

  /** One order of the inner loop: a BUY or SELL moves the cash and the
      units of its symbol; anything else is skipped. */
  function ApplyOrder(l: Ledger, o: Order): (r: Ledger)
    requires o.symbol in l.holdings
    ensures r.holdings.Keys == l.holdings.Keys
  {
    if o.action == BUY.Value() || o.action == SELL.Value() then
      Ledger(l.cash + CashDelta(o), l.holdings[o.symbol := l.holdings[o.symbol] + QtyDelta(o, o.symbol)])
    else l
  }

  /** Every order of `os` names a symbol the ledger tracks. */
  predicate Tracks(l: Ledger, os: seq<Order>) {
    forall i :: 0 <= i < |os| ==> os[i].symbol in l.holdings
  }

  /** The orders of one date applied in order: the ledger moves by exactly
      the net cash and net units of the orders stamped `date`. */
  function ApplyDay(l: Ledger, os: seq<Order>, date: Time): (r: Ledger)
    requires Tracks(l, os)
    ensures r.holdings.Keys == l.holdings.Keys
    ensures r.cash == l.cash + Net(Engine.OrdersAt(os, date), CashDelta)
    ensures forall s :: s in l.holdings ==>
      r.holdings[s] == l.holdings[s] + Net(Engine.OrdersAt(os, date), QtyOf(s))
    decreases |os|
  {
    if os == [] then l
    else
      var l1 := if os[0].timestamp == date then ApplyOrder(l, os[0]) else l;
      var ats := Engine.OrdersAt(os, date);
      var rest := Engine.OrdersAt(os[1..], date);
      assert os[0].timestamp == date ==> ats[0] == os[0] && ats[1..] == rest;
      assert os[0].timestamp != date ==> ats == rest;
      assert Tracks(l1, os[1..]) by {
        forall i | 0 <= i < |os[1..]| ensures os[1..][i].symbol in l1.holdings {
          assert os[1..][i] == os[i + 1];
        }
      }
      ApplyDay(l1, os[1..], date)
  }

  /** The total of the columns `tickers` of a row's values. */
  function Columns(values: map<string, real>, tickers: seq<string>): real
    requires forall i :: 0 <= i < |tickers| ==> tickers[i] in values
  {
    if tickers == [] then 0.0 else values[tickers[0]] + Columns(values, tickers[1..])
  }

  /** The row of one date, after its orders: each column is the holding
      valued at the date's price (0.0 for a symbol without a price), and
      the total is the cash plus the sum of the columns. */
  function Mark(l: Ledger, tickers: seq<string>, prices: map<string, real>, date: Time): (r: Record)
    requires forall i :: 0 <= i < |tickers| ==> tickers[i] in l.holdings
    ensures r.date == date && r.cash == l.cash
    ensures r.values.Keys == ColumnSet(tickers)
    ensures forall s :: s in tickers ==> r.values[s] == l.holdings[s] * Get(prices, s)
    ensures r.totalValue == r.cash + Columns(r.values, tickers)
  {
    var values := map s | s in tickers :: l.holdings[s] * Get(prices, s);
    Record(date, l.cash + Columns(values, tickers), l.cash, values)
  }

  /** The columns of a row. */
  function ColumnSet(tickers: seq<string>): set<string> {
    set s | s in tickers
  }

  /** The rows of the dates in `dates`, each after that date's orders. */
  function Days(l: Ledger, os: seq<Order>, tickers: seq<string>, book: map<Time, seq<PriceBar>>, dates: seq<Time>): (r: seq<Record>)
    requires Tracks(l, os)
    requires forall i :: 0 <= i < |tickers| ==> tickers[i] in l.holdings
    requires forall i :: 0 <= i < |dates| ==> dates[i] in book
    ensures |r| == |dates|
    ensures forall i :: 0 <= i < |dates| ==> r[i].date == dates[i] && r[i].values.Keys == ColumnSet(tickers)
    decreases |dates|
  {
    if dates == [] then []
    else
      var l1 := ApplyDay(l, os, dates[0]);
      assert Tracks(l1, os);
      var rest := Days(l1, os, tickers, book, dates[1..]);
      var first := Mark(l1, tickers, PriceMap(book[dates[0]]), dates[0]);
      DaysCons(first, rest, tickers, dates);
      Prepend(first, rest)
  }

  lemma DaysCons(first: Record, rest: seq<Record>, tickers: seq<string>, dates: seq<Time>)
    requires dates != [] && |rest| == |dates| - 1
    requires first.date == dates[0] && first.values.Keys == ColumnSet(tickers)
    requires forall i :: 0 <= i < |dates[1..]| ==> rest[i].date == dates[1..][i] && rest[i].values.Keys == ColumnSet(tickers)
    ensures forall i :: 0 <= i < |dates| ==> Prepend(first, rest)[i].date == dates[i] && Prepend(first, rest)[i].values.Keys == ColumnSet(tickers)
  {
    var r := Prepend(first, rest);
    forall i | 0 <= i < |dates| ensures r[i].date == dates[i] && r[i].values.Keys == ColumnSet(tickers) {
      if i > 0 {
        assert r[i] == rest[i - 1] && dates[1..][i - 1] == dates[i];
      }
    }
  }

  /** `build_portfolio_timeseries`, before pandas indexes it: a first row
      at `start` holding the initial capital, then one row per date of
      `dataPoints` in ascending order, each with one column per symbol the
      strategy traded. */
  function BuildPortfolioTimeseries(orders: seq<Order>, dataPoints: map<Time, seq<PriceBar>>, name: string, start: Time, initial: real): (r: seq<Record>)
    ensures |r| == 1 + |dataPoints.Keys|
    ensures r[0] == Record(start, initial, initial, map s | s in Symbols(OfStrategy(orders, name)) :: 0.0)
    ensures forall i :: 1 <= i < |r| ==> r[i].date == Sorted(dataPoints.Keys)[i - 1]
    ensures forall i :: 0 <= i < |r| ==> r[i].values.Keys == ColumnSet(Symbols(OfStrategy(orders, name)))
  {
    var mine := OfStrategy(orders, name);
    Series(mine, Symbols(mine), dataPoints, Sorted(dataPoints.Keys), start, initial)
  }

  /** The rows for orders `mine`, columns `tickers` and dates `dates`. */
  function Series(mine: seq<Order>, tickers: seq<string>, dataPoints: map<Time, seq<PriceBar>>, dates: seq<Time>, start: Time, initial: real): (r: seq<Record>)
    requires forall i :: 0 <= i < |mine| ==> mine[i].symbol in tickers
    requires forall i :: 0 <= i < |dates| ==> dates[i] in dataPoints
    ensures |r| == 1 + |dates|
    ensures r[0] == Record(start, initial, initial, map s | s in tickers :: 0.0)
    ensures forall i :: 1 <= i < |r| ==> r[i].date == dates[i - 1]
    ensures forall i :: 0 <= i < |r| ==> r[i].values.Keys == ColumnSet(tickers)
  {
    var l := Start(tickers, mine, initial);
    var days := Days(l, mine, tickers, dataPoints, dates);
    var first := Record(start, initial, initial, map s | s in tickers :: 0.0);
    assert first.values.Keys == ColumnSet(tickers);
    Prepend(first, days)
  }

  /** `first` followed by `rest`. */
  function Prepend(first: Record, rest: seq<Record>): (r: seq<Record>)
    ensures |r| == 1 + |rest| && r[0] == first
    ensures forall i :: 1 <= i < |r| ==> r[i] == rest[i - 1]
  {
    [first] + rest
  }

  /** The ledger before the first date: all cash, no units of any of
      `tickers`, which name every order's symbol. */
  function Start(tickers: seq<string>, mine: seq<Order>, initial: real): (l: Ledger)
    requires forall i :: 0 <= i < |mine| ==> mine[i].symbol in tickers
    ensures l.cash == initial && l.holdings.Keys == ColumnSet(tickers)
    ensures forall s :: s in tickers ==> l.holdings[s] == 0.0
    ensures Tracks(l, mine)
    ensures forall i :: 0 <= i < |tickers| ==> tickers[i] in l.holdings
  {
    Ledger(initial, map s | s in tickers :: 0.0)
  }

  // ---------------------------------------------------------------------------
  // The rows follow the strategy's net trading

  lemma {:induction false} WithinSingle(os: seq<Order>, d: Time)
    ensures Within(os, [d]) == Engine.OrdersAt(os, d)
  {
    if os != [] {
      WithinSingle(os[1..], d);
    }
  }

  /** Adding a date to the set of dates adds the net of its own orders. */
  lemma {:induction false} NetWithinCons(os: seq<Order>, d: Time, rest: seq<Time>, f: Order -> real)
    requires d !in rest
    ensures Net(Within(os, [d] + rest), f) == Net(Engine.OrdersAt(os, d), f) + Net(Within(os, rest), f)
  {
    if os != [] {
      NetWithinCons(os[1..], d, rest, f);
      var o := os[0];
      var w := Within(os, [d] + rest);
      var a := Engine.OrdersAt(os, d);
      var b := Within(os, rest);
      if o.timestamp == d {
        assert w[0] == o && w[1..] == Within(os[1..], [d] + rest);
        assert a[0] == o && a[1..] == Engine.OrdersAt(os[1..], d);
        assert b == Within(os[1..], rest);
      } else if o.timestamp in rest {
        assert w[0] == o && w[1..] == Within(os[1..], [d] + rest);
        assert a == Engine.OrdersAt(os[1..], d);
        assert b[0] == o && b[1..] == Within(os[1..], rest);
      } else {
        assert w == Within(os[1..], [d] + rest);
        assert a == Engine.OrdersAt(os[1..], d);
        assert b == Within(os[1..], rest);
      }
    }
  }

  /** The ledger `l` moved by the net of every order of `os` stamped with
      one of `upTo`. */
  function NetLedger(l: Ledger, os: seq<Order>, upTo: seq<Time>): (r: Ledger)
    ensures r.cash == l.cash + Net(Within(os, upTo), CashDelta)
    ensures r.holdings.Keys == l.holdings.Keys
    ensures forall s :: s in l.holdings ==> r.holdings[s] == l.holdings[s] + Net(Within(os, upTo), QtyOf(s))
  {
    Ledger(l.cash + Net(Within(os, upTo), CashDelta),
           map s | s in l.holdings :: l.holdings[s] + Net(Within(os, upTo), QtyOf(s)))
  }

  /** One date's orders, then those of the later dates, net to the orders
      of all of them. */
  lemma LedgerStep(l: Ledger, os: seq<Order>, d: Time, rest: seq<Time>)
    requires Tracks(l, os) && d !in rest
    ensures NetLedger(ApplyDay(l, os, d), os, rest) == NetLedger(l, os, [d] + rest)
  {
    var l1 := ApplyDay(l, os, d);
    var a := NetLedger(l1, os, rest);
    var b := NetLedger(l, os, [d] + rest);
    NetWithinCons(os, d, rest, CashDelta);
    forall s | s in l.holdings ensures a.holdings[s] == b.holdings[s] {
      NetWithinCons(os, d, rest, QtyOf(s));
    }
    assert a.holdings == b.holdings;
  }

  /** The first date's orders alone. */
  lemma FirstDay(l: Ledger, os: seq<Order>, d: Time)
    requires Tracks(l, os)
    ensures ApplyDay(l, os, d) == NetLedger(l, os, [d])
  {
    WithinSingle(os, d);
    var l1 := ApplyDay(l, os, d);
    var n := NetLedger(l, os, [d]);
    assert l1.holdings == n.holdings;
  }

  /** Distinct dates after the first. */
  lemma LaterDates(dates: seq<Time>, j: int)
    requires StrictlyIncreasing(dates) && 0 < j < |dates|
    ensures dates[..j + 1] == [dates[0]] + dates[1..][..j]
    ensures dates[0] !in dates[1..][..j]
    ensures StrictlyIncreasing(dates[1..])
  {
    assert dates[..j + 1] == [dates[0]] + dates[1..][..j];
    forall k | 0 <= k < j ensures dates[1..][..j][k] != dates[0] {
      assert dates[1..][..j][k] == dates[k + 1];
    }
  }

  lemma {:induction false} DaysFollowNet(l: Ledger, os: seq<Order>, tickers: seq<string>, book: map<Time, seq<PriceBar>>, dates: seq<Time>, j: int)
    requires Tracks(l, os)
    requires forall i :: 0 <= i < |tickers| ==> tickers[i] in l.holdings
    requires forall i :: 0 <= i < |dates| ==> dates[i] in book
    requires StrictlyIncreasing(dates) && 0 <= j < |dates|
    ensures Days(l, os, tickers, book, dates)[j] == Mark(NetLedger(l, os, dates[..j + 1]), tickers, PriceMap(book[dates[j]]), dates[j])
    decreases |dates|
  {
    var d := dates[0];
    var l1 := ApplyDay(l, os, d);
    var prices := PriceMap(book[dates[j]]);
    var tail := Days(l1, os, tickers, book, dates[1..]);
    assert Days(l, os, tickers, book, dates) == Prepend(Mark(l1, tickers, PriceMap(book[d]), d), tail);
    if j == 0 {
      assert dates[..1] == [d];
      FirstDay(l, os, d);
      assert l1 == NetLedger(l, os, dates[..j + 1]);
    } else {
      assert Days(l, os, tickers, book, dates)[j] == tail[j - 1];
      LaterDates(dates, j);
      DaysFollowNet(l1, os, tickers, book, dates[1..], j - 1);
      assert dates[1..][j - 1] == dates[j];
      var upTo := dates[1..][..j];
      assert tail[j - 1] == Mark(NetLedger(l1, os, upTo), tickers, prices, dates[j]);
      LedgerStep(l, os, d, upTo);
      assert NetLedger(l1, os, upTo) == NetLedger(l, os, dates[..j + 1]);
    }
  }

  /** Every row after the first is the row of the ledger that starts with
      the initial capital and no units and is moved by every order of the
      strategy stamped on or before the row's date. Orders stamped with a
      date that is not a key of `dataPoints`, and orders of other
      strategies, never count. */
  lemma TimeseriesIsNetLedger(orders: seq<Order>, dataPoints: map<Time, seq<PriceBar>>, name: string, start: Time, initial: real, k: int)
    requires 0 <= k < |dataPoints.Keys|
    ensures var mine := OfStrategy(orders, name);
      var tickers := Symbols(mine);
      var dates := Sorted(dataPoints.Keys);
      BuildPortfolioTimeseries(orders, dataPoints, name, start, initial)[k + 1]
      == Mark(NetLedger(Start(tickers, mine, initial), mine, dates[..k + 1]), tickers, PriceMap(dataPoints[dates[k]]), dates[k])
  {
    var mine := OfStrategy(orders, name);
    var tickers := Symbols(mine);
    var dates := Sorted(dataPoints.Keys);
    var l := Start(tickers, mine, initial);
    DaysFollowNet(l, mine, tickers, dataPoints, dates, k);
  }

  /** A strategy without orders keeps its initial capital on every row,
      with no columns. */
  lemma NoOrdersFlat(orders: seq<Order>, dataPoints: map<Time, seq<PriceBar>>, name: string, start: Time, initial: real)
    requires forall i :: 0 <= i < |orders| ==> orders[i].strategy != name
    ensures var r := BuildPortfolioTimeseries(orders, dataPoints, name, start, initial);
      forall i :: 0 <= i < |r| ==> r[i].cash == initial && r[i].totalValue == initial && r[i].values == map[]
  {
    var r := BuildPortfolioTimeseries(orders, dataPoints, name, start, initial);
    NoOrders(orders, name);
    forall i | 0 <= i < |r| ensures r[i].cash == initial && r[i].totalValue == initial && r[i].values == map[] {
      if i > 0 {
        NoOrdersRow(orders, dataPoints, name, start, initial, i - 1);
      }
    }
  }

  /** No order of `orders` belongs to `name`, so no symbol is traded. */
  lemma NoOrders(orders: seq<Order>, name: string)
    requires forall i :: 0 <= i < |orders| ==> orders[i].strategy != name
    ensures OfStrategy(orders, name) == [] && Symbols(OfStrategy(orders, name)) == []
  {
    assert OfStrategy(orders, name) == [];
  }

  /** One row after the first, for a strategy without orders. */
  lemma NoOrdersRow(orders: seq<Order>, dataPoints: map<Time, seq<PriceBar>>, name: string, start: Time, initial: real, k: int)
    requires forall i :: 0 <= i < |orders| ==> orders[i].strategy != name
    requires 0 <= k < |dataPoints.Keys|
    ensures var row := BuildPortfolioTimeseries(orders, dataPoints, name, start, initial)[k + 1];
      row.cash == initial && row.totalValue == initial && row.values == map[]
  {
    NoOrders(orders, name);
    var dates := Sorted(dataPoints.Keys);
    TimeseriesIsNetLedger(orders, dataPoints, name, start, initial, k);
    EmptyRow(initial, dates[..k + 1], PriceMap(dataPoints[dates[k]]), dates[k]);
  }

  lemma EmptyRow(initial: real, upTo: seq<Time>, prices: map<string, real>, date: Time)
    ensures var row := Mark(NetLedger(Start([], [], initial), [], upTo), [], prices, date);
      row.cash == initial && row.totalValue == initial && row.values == map[]
  {
    assert Within([], upTo) == [];
  }

  /** Only the named strategy's orders matter. */
  lemma OtherStrategiesIgnored(orders: seq<Order>, dataPoints: map<Time, seq<PriceBar>>, name: string, start: Time, initial: real)
    ensures BuildPortfolioTimeseries(OfStrategy(orders, name), dataPoints, name, start, initial)
         == BuildPortfolioTimeseries(orders, dataPoints, name, start, initial)
  {
    OfStrategyIdempotent(orders, name);
  }
}

=== FILE: crossover.dfy ===
/** `MovingAverageCrossoverStrategy` of `src/strategies.py`: one shared
    price history; once it holds `longWindow` prices, BUY when the short
    trailing mean is above the long one and SELL when it is below. */
module Crossover {
  import opened Results
  import opened Models
  import Engine

  const DEFAULT_SHORT_WINDOW: int := 5
  const DEFAULT_LONG_WINDOW: int := 20

  /** The fixed lot every crossover signal trades. */
  const LOT: real := 100.0

  datatype State = State(shortWindow: int, longWindow: int, prices: seq<real>)

  /** Windows for which the means are defined: a window of 0 divides by zero. */
  predicate Windowed(st: State) {
    st.shortWindow >= 1 && st.longWindow >= 1
  }

  /** The states `generate_signals` can be called on. */
  type WindowedState = st: State | Windowed(st) witness State(1, 1, [])

  function Init(shortWindow: int, longWindow: int): (st: State)
    ensures st.prices == []
    ensures st.shortWindow == shortWindow && st.longWindow == longWindow
  {
    State(shortWindow, longWindow, [])
  }

  function Sum(s: seq<real>): real {
    if s == [] then 0.0 else s[0] + Sum(s[1..])
  }

  /** Python's `s[-k:]` for `k >= 1`: the last `k` items, or all of them
      when there are fewer. */
  function Last(s: seq<real>, k: int): (r: seq<real>)
    requires k >= 1
    ensures |r| == if k <= |s| then k else |s|
    ensures r == s[|s| - |r|..]
  {
    if k <= |s| then s[|s| - k..] else s
  }

  /** `sum(prices[-k:]) / k`. */
  function Mean(s: seq<real>, k: int): real
    requires k >= 1
  {
    Sum(Last(s, k)) / k as real
  }

  /** The crossover rule on a history that already includes the current
      price: the action to emit, if any. */
  function Decide(h: seq<real>, shortWindow: int, longWindow: int): (r: Option<OrderAction>)
    requires shortWindow >= 1 && longWindow >= 1
    ensures r.Some? ==> r.value != HOLD
  {
    if |h| >= longWindow then
      var shortMa := Mean(h, shortWindow);
      var longMa := Mean(h, longWindow);
      if shortMa > longMa then Some(BUY)
      else if shortMa < longMa then Some(SELL)
      else None
    else None
  }

  /** `generate_signals`, with each signal stamped with the tick's timestamp
      so that the engine can unpack it. */
  function Step(st: State, tick: MarketDataPoint): (r: (State, seq<Signal>))
    requires Windowed(st)
    ensures r.0 == st.(prices := st.prices + [tick.price])
    ensures |r.1| <= 1
    ensures |r.0.prices| < st.longWindow ==> r.1 == []
    ensures forall s :: s in r.1 ==>
      s.timestamp == tick.timestamp && s.symbol == tick.symbol && s.quantity == LOT && s.price == tick.price
    ensures forall s :: s in r.1 ==> s.action == BUY.Value() || s.action == SELL.Value()
    ensures var h := r.0.prices;
      |h| >= st.longWindow && Mean(h, st.shortWindow) == Mean(h, st.longWindow) ==> r.1 == []
    ensures var h := r.0.prices;
      (r.1 != [] && r.1[0].action == BUY.Value())
      <==> |h| >= st.longWindow && Mean(h, st.shortWindow) > Mean(h, st.longWindow)
    ensures var h := r.0.prices;
      (r.1 != [] && r.1[0].action == SELL.Value())
      <==> |h| >= st.longWindow && Mean(h, st.shortWindow) < Mean(h, st.longWindow)
  {
    var h := st.prices + [tick.price];
    var signals :=
      match Decide(h, st.shortWindow, st.longWindow)
      case None => []
      case Some(a) => [Signal(tick.timestamp, a.Value(), tick.symbol, LOT, tick.price)];
    (st.(prices := h), signals)
  }

  /** `generate_signals` exactly as written: the signal is a four-field
      tuple without a timestamp. */
  function StepAsWritten(st: State, tick: MarketDataPoint): (r: (State, seq<SignalTuple>))
    requires Windowed(st)
    ensures forall t :: t in r.1 ==> t.Quad?
  {
    var h := st.prices + [tick.price];
    var signals :=
      match Decide(h, st.shortWindow, st.longWindow)
      case None => []
      case Some(a) => [Quad(a.Value(), tick.symbol, LOT, tick.price)];
    (st.(prices := h), signals)
  }

  /** A signal as the four-field tuple of the strategy as written. */
  function Drop(s: Signal): (t: SignalTuple)
    ensures t.Quad? && t.action == s.action && t.symbol == s.symbol && t.quantity == s.quantity && t.price == s.price
  {
    Quad(s.action, s.symbol, s.quantity, s.price)
  }

  /** The strategy as written and the corrected one are the same strategy:
      the same history, and the same signals up to the missing timestamp. */
  lemma AsWrittenIsStep(st: State, tick: MarketDataPoint)
    requires Windowed(st)
    ensures StepAsWritten(st, tick).0 == Step(st, tick).0
    ensures |StepAsWritten(st, tick).1| == |Step(st, tick).1|
    ensures forall i :: 0 <= i < |Step(st, tick).1| ==> StepAsWritten(st, tick).1[i] == Drop(Step(st, tick).1[i])
  {
  }

  /** A rising price after one earlier price, with windows 1 and 2, makes
      the strategy as written emit a BUY tuple that `run` cannot unpack. */
  lemma AsWrittenSignalCannotBeUnpacked()
    ensures var r := StepAsWritten(State(1, 2, [1.0]), MarketDataPoint(0, "AAPL", 2.0));
      && r.1 == [Quad(BUY.Value(), "AAPL", LOT, 2.0)]
      && Unpack(r.1[0]) == None
  {
    var h := [1.0, 2.0];
    assert Last(h, 1) == [2.0];
    assert Sum([2.0]) == 2.0;
    assert Last(h, 2) == h;
    assert Sum(h) == 3.0;
  }

  /** Every signal of the corrected strategy unpacks to itself. */
  lemma StepSignalsUnpack(st: State, tick: MarketDataPoint)
    requires Windowed(st)
    ensures forall s :: s in Step(st, tick).1 ==> Unpack(Pack(s)) == Some(s) && s.timestamp == tick.timestamp
  {
  }

  /** The strategy fed a sequence of ticks: the final state and the signals
      of each call. */
  function Run(st: State, ticks: seq<MarketDataPoint>): (r: (State, seq<seq<Signal>>))
    requires Windowed(st)
    ensures |r.1| == |ticks|
    ensures Windowed(r.0) && r.0.shortWindow == st.shortWindow && r.0.longWindow == st.longWindow
    decreases |ticks|
  {
    if ticks == [] then (st, [])
    else
      var (st1, first) := Step(st, ticks[0]);
      var (st2, rest) := Run(st1, ticks[1..]);
      (st2, [first] + rest)
  }

  /** `Step` as the total step function the engine is generic over. */
  function Generate(st: WindowedState, tick: MarketDataPoint): (r: (WindowedState, seq<Signal>))
    ensures r.0.prices == st.prices + [tick.price]
    ensures r.0.shortWindow == st.shortWindow && r.0.longWindow == st.longWindow
    ensures r.1 == Step(st, tick).1
  {
    Step(st, tick)
  }

  /** What the engine's `generate_signals` does with the strategy is `Run`:
      the lemmas about `Run` are about the signals `run` processes. */
  lemma {:induction false} EngineRunsCrossover(st: WindowedState, ticks: seq<MarketDataPoint>)
    ensures Engine.GenerateSignals(Generate, st, ticks).0 == Run(st, ticks).0
    ensures Engine.GenerateSignals(Generate, st, ticks).1 == Run(st, ticks).1
    decreases |ticks|
  {
    if ticks != [] {
      var st1 := Generate(st, ticks[0]).0;
      assert st1 == Step(st, ticks[0]).0;
      EngineRunsCrossover(st1, ticks[1..]);
    }
  }

  /** The prices of a tick sequence. */
  function Prices(ticks: seq<MarketDataPoint>): (r: seq<real>)
    ensures |r| == |ticks|
    ensures forall i :: 0 <= i < |ticks| ==> r[i] == ticks[i].price
  {
    seq(|ticks|, i requires 0 <= i < |ticks| => ticks[i].price)
  }

  lemma PricesCons(ticks: seq<MarketDataPoint>)
    requires ticks != []
    ensures Prices(ticks) == [ticks[0].price] + Prices(ticks[1..])
  {
    var r := [ticks[0].price] + Prices(ticks[1..]);
    assert forall i :: 0 <= i < |ticks| ==> r[i] == ticks[i].price by {
      forall i | 0 <= i < |ticks| ensures r[i] == ticks[i].price {
        if i > 0 { assert r[i] == Prices(ticks[1..])[i - 1]; }
      }
    }
  }

  /** Each call appends exactly the tick's price: after a run the history
      is the old one followed by every price seen, in order. */
  lemma {:induction false} RunHistory(st: State, ticks: seq<MarketDataPoint>)
    requires Windowed(st)
    ensures Run(st, ticks).0.prices == st.prices + Prices(ticks)
    decreases |ticks|
  {
    if ticks != [] {
      var st1 := Step(st, ticks[0]).0;
      assert Run(st, ticks).0 == Run(st1, ticks[1..]).0;
      assert st1.prices == st.prices + [ticks[0].price];
      RunHistory(st1, ticks[1..]);
      PricesCons(ticks);
      assert st1.prices + Prices(ticks[1..]) == st.prices + ([ticks[0].price] + Prices(ticks[1..]));
    }
  }

  /** Warm-up: no call emits a signal while the history, including the
      current price, is shorter than the long window. */
  lemma {:induction false} RunWarmUp(st: State, ticks: seq<MarketDataPoint>)
    requires Windowed(st)
    ensures forall i :: 0 <= i < |ticks| && |st.prices| + i + 1 < st.longWindow ==> Run(st, ticks).1[i] == []
    decreases |ticks|
  {
    if ticks != [] {
      var st1 := Step(st, ticks[0]).0;
      RunWarmUp(st1, ticks[1..]);
      var out := Run(st, ticks).1;
      assert out == [Step(st, ticks[0]).1] + Run(st1, ticks[1..]).1;
      forall i | 0 <= i < |ticks| && |st.prices| + i + 1 < st.longWindow ensures out[i] == [] {
        if i > 0 {
          assert out[i] == Run(st1, ticks[1..]).1[i - 1];
        }
      }
    }
  }

  /** With the default windows of 5 and 20, the first 19 ticks of a new
      strategy yield no signal. */
  lemma DefaultWarmUp(ticks: seq<MarketDataPoint>)
    ensures var st := Init(DEFAULT_SHORT_WINDOW, DEFAULT_LONG_WINDOW);
      Windowed(st) && st.shortWindow <= st.longWindow
    ensures forall i :: 0 <= i < |ticks| && i < 19 ==> Run(Init(DEFAULT_SHORT_WINDOW, DEFAULT_LONG_WINDOW), ticks).1[i] == []
  {
    RunWarmUp(Init(DEFAULT_SHORT_WINDOW, DEFAULT_LONG_WINDOW), ticks);
  }

  lemma {:induction false} SumConstant(s: seq<real>, c: real)
    requires forall i :: 0 <= i < |s| ==> s[i] == c
    ensures Sum(s) == |s| as real * c
  {
    if s != [] {
      SumConstant(s[1..], c);
    }
  }

  lemma MeanConstant(h: seq<real>, c: real, k: int)
    requires 1 <= k <= |h|
    requires forall i :: 0 <= i < |h| ==> h[i] == c
    ensures Mean(h, k) == c
  {
    var w := Last(h, k);
    assert |w| == k;
    assert forall i :: 0 <= i < |w| ==> w[i] == h[|h| - k + i];
    SumConstant(w, c);
    assert Sum(w) == k as real * c;
  }

  /** On a constant history both means equal the price, so no signal. */
  lemma ConstantHistoryNoSignal(h: seq<real>, c: real, shortWindow: int, longWindow: int)
    requires 1 <= shortWindow <= longWindow
    requires forall i :: 0 <= i < |h| ==> h[i] == c
    ensures Decide(h, shortWindow, longWindow) == None
  {
    if |h| >= longWindow {
      MeanConstant(h, c, shortWindow);
      MeanConstant(h, c, longWindow);
    }
  }

  /** A constant-price stream never produces a signal, given a short window
      no longer than the long one. */
  lemma {:induction false} ConstantStreamSilent(st: State, ticks: seq<MarketDataPoint>, c: real)
    requires Windowed(st) && st.shortWindow <= st.longWindow
    requires forall i :: 0 <= i < |st.prices| ==> st.prices[i] == c
    requires forall i :: 0 <= i < |ticks| ==> ticks[i].price == c
    ensures forall i :: 0 <= i < |ticks| ==> Run(st, ticks).1[i] == []
    decreases |ticks|
  {
    if ticks != [] {
      var h := st.prices + [ticks[0].price];
      assert forall i :: 0 <= i < |h| ==> h[i] == c by {
        forall i | 0 <= i < |h| ensures h[i] == c {
          if i < |st.prices| { assert h[i] == st.prices[i]; }
        }
      }
      ConstantHistoryNoSignal(h, c, st.shortWindow, st.longWindow);
      var st1 := Step(st, ticks[0]).0;
      assert st1.prices == h && Step(st, ticks[0]).1 == [];
      assert forall i :: 0 <= i < |ticks[1..]| ==> ticks[1..][i].price == c by {
        forall i | 0 <= i < |ticks[1..]| ensures ticks[1..][i].price == c {
          assert ticks[1..][i] == ticks[i + 1];
        }
      }
      ConstantStreamSilent(st1, ticks[1..], c);
      var out := Run(st, ticks).1;
      assert out == [Step(st, ticks[0]).1] + Run(st1, ticks[1..]).1;
      forall i | 0 <= i < |ticks| ensures out[i] == [] {
        if i > 0 {
          assert out[i] == Run(st1, ticks[1..]).1[i - 1];
        }
      }
    }
  }
}

=== FILE: engine.dfy ===
/** `ExecutionEngine` of `src/engine.py`: the ticker book built from the
    market data, the timestamp-ordered dispatch of ticks to a strategy, and
    `run`, which folds the accounting step of `Accounting` over every
    strategy's signals, swallowing order and execution errors.

    A strategy is any step function from its private state and a tick to its
    next state and the signals it emits for that tick. */
module Engine {
  import opened Results
  import opened Times
  import opened Models
  import opened Accounting
  import opened Seqs

  /** What the engine records for one timestamp: the ticks that arrived with
      it and the orders filled at it. */
  datatype TickerBook<T> = TickerBook(orders: seq<Order>, marketData: seq<T>)

  datatype ExecutionEngine<T> = ExecutionEngine(
    book: map<Time, TickerBook<T>>,
    portfolios: map<string, Portfolio>,
    orders: seq<Order>)

  /** The one failure that escapes `run`: a filled order whose timestamp has
      no ticker-book entry raises `KeyError` when it is recorded, after the
      portfolio has already been updated. */
  datatype Fatal = MissingBookEntry(timestamp: Time)

  // ---------------------------------------------------------------------------
  // The ticker book

  /** The ticks the book holds for `t`. */
  function PointsOf<T>(book: map<Time, TickerBook<T>>, t: Time): seq<T> {
    if t in book then book[t].marketData else []
  }

  /** The points the market data lists under `t`, in order. */
  function PointsIn<T>(data: seq<(Time, seq<T>)>, t: Time): seq<T> {
    if data == [] then []
    else (if data[0].0 == t then data[0].1 else []) + PointsIn(data[1..], t)
  }

  /** One entry of the market data. An empty list of points creates no
      ticker-book entry, since the entry is made inside the per-point loop. */
  function AddPoints<T>(book: map<Time, TickerBook<T>>, t: Time, points: seq<T>): map<Time, TickerBook<T>> {
    if points == [] then book
    else
      var entry := if t in book then book[t] else TickerBook([], []);
      book[t := entry.(marketData := entry.marketData + points)]
  }

  lemma AddPointsAt<T>(book: map<Time, TickerBook<T>>, t0: Time, points: seq<T>, t: Time)
    ensures var b := AddPoints(book, t0, points);
      && PointsOf(b, t) == PointsOf(book, t) + (if t == t0 then points else [])
      && (t in b <==> t in book || (t == t0 && points != []))
      && (t in book ==> b[t].orders == book[t].orders)
      && (t in b && t !in book ==> b[t].orders == [])
  {
    if points == [] {
      assert PointsOf(book, t) + [] == PointsOf(book, t);
    }
  }

  /** `b` is `book` after the points of `data` were added: each timestamp
      holds its earlier ticks followed by the points listed under it, in
      order; an entry exists exactly for the timestamps with at least one
      tick; recorded orders are kept and new entries start with none. */
  ghost predicate BookAfter<T>(book: map<Time, TickerBook<T>>, data: seq<(Time, seq<T>)>, b: map<Time, TickerBook<T>>) {
    && (forall t :: PointsOf(b, t) == PointsOf(book, t) + PointsIn(data, t))
    && (forall t :: t in b <==> t in book || PointsIn(data, t) != [])
    && (forall t :: t in book ==> b[t].orders == book[t].orders)
    && (forall t :: t in b && t !in book ==> b[t].orders == [])
  }

  /** `update_ticker_book`: every point is appended, in order, to the entry
      of the timestamp it is listed under. */
  function UpdateTickerBook<T>(book: map<Time, TickerBook<T>>, data: seq<(Time, seq<T>)>): (r: map<Time, TickerBook<T>>)
    ensures forall t :: t in book ==> t in r && r[t].orders == book[t].orders
    ensures forall t :: t in r && t !in book ==> r[t].orders == []
    decreases |data|
  {
    if data == [] then book
    else UpdateTickerBook(AddPoints(book, data[0].0, data[0].1), data[1..])
  }

  /** The full contents of the book after loading: see `BookAfter`. */
  lemma {:induction false} UpdateTickerBookContents<T>(book: map<Time, TickerBook<T>>, data: seq<(Time, seq<T>)>)
    ensures BookAfter(book, data, UpdateTickerBook(book, data))
    decreases |data|
  {
    if data == [] {
      NoData(book, data);
    } else {
      var book1 := AddPoints(book, data[0].0, data[0].1);
      UpdateTickerBookContents(book1, data[1..]);
      assert UpdateTickerBook(book, data) == UpdateTickerBook(book1, data[1..]);
      BookStep(book, data, UpdateTickerBook(book, data));
    }
  }

  lemma NoData<T>(book: map<Time, TickerBook<T>>, data: seq<(Time, seq<T>)>)
    requires data == []
    ensures BookAfter(book, data, book)
  {
    forall t ensures PointsOf(book, t) == PointsOf(book, t) + PointsIn(data, t) {
      assert PointsOf(book, t) + [] == PointsOf(book, t);
    }
  }

  /** Adding the first entry's points, then the rest, adds them all. */
  lemma BookStep<T>(book: map<Time, TickerBook<T>>, data: seq<(Time, seq<T>)>, r: map<Time, TickerBook<T>>)
    requires data != []
    requires BookAfter(AddPoints(book, data[0].0, data[0].1), data[1..], r)
    ensures BookAfter(book, data, r)
  {
    forall t ensures PointsOf(r, t) == PointsOf(book, t) + PointsIn(data, t)
                 && (t in r <==> t in book || PointsIn(data, t) != [])
                 && (t in book ==> r[t].orders == book[t].orders)
                 && (t in r && t !in book ==> r[t].orders == []) {
      BookStepAt(book, data, r, t);
    }
  }

  lemma BookStepAt<T>(book: map<Time, TickerBook<T>>, data: seq<(Time, seq<T>)>, r: map<Time, TickerBook<T>>, t: Time)
    requires data != []
    requires BookAfter(AddPoints(book, data[0].0, data[0].1), data[1..], r)
    ensures PointsOf(r, t) == PointsOf(book, t) + PointsIn(data, t)
    ensures t in r <==> t in book || PointsIn(data, t) != []
    ensures t in book ==> r[t].orders == book[t].orders
    ensures t in r && t !in book ==> r[t].orders == []
  {
    var t0 := data[0].0;
    var points := data[0].1;
    var book1 := AddPoints(book, t0, points);
    AddPointsAt(book, t0, points, t);
    var here := if t0 == t then points else [];
    assert PointsIn(data, t) == here + PointsIn(data[1..], t);
    assert PointsOf(r, t) == PointsOf(book1, t) + PointsIn(data[1..], t);
    assert PointsOf(book1, t) == PointsOf(book, t) + here;
    AppendAssoc(PointsOf(book, t), here, PointsIn(data[1..], t));
    assert PointsIn(data, t) != [] <==> here != [] || PointsIn(data[1..], t) != [] by {
      assert |PointsIn(data, t)| == |here| + |PointsIn(data[1..], t)|;
    }
    assert t in r <==> t in book1 || PointsIn(data[1..], t) != [];
  }

  /** The engine as its constructor leaves it: the book built from the market
      data and one fresh portfolio per strategy name. Its empty log stands in
      for the `orders` attribute, which only `run` creates. */
  function NewEngine<T>(data: seq<(Time, seq<T>)>, names: seq<string>): (e: ExecutionEngine<T>)
    ensures e.portfolios.Keys == set n | n in names
    ensures forall n :: n in e.portfolios ==> e.portfolios[n] == Fresh(INITIAL_CAPITAL)
    ensures forall t :: PointsOf(e.book, t) == PointsIn(data, t)
    ensures forall t :: t in e.book <==> PointsIn(data, t) != []
    ensures forall t :: t in e.book ==> e.book[t].orders == []
    ensures e.orders == []
  {
    UpdateTickerBookContents(map[], data);
    var portfolios := map n | n in names :: Fresh(INITIAL_CAPITAL);
    ExecutionEngine(UpdateTickerBook(map[], data), portfolios, [])
  }

  // ---------------------------------------------------------------------------
  // Dispatch order

  /** The points of one timestamp, each tagged with it. */
  function Tag<T>(t: Time, points: seq<T>): (r: seq<(Time, T)>)
    ensures |r| == |points|
    ensures forall i :: 0 <= i < |r| ==> r[i] == (t, points[i])
  {
    seq(|points|, i requires 0 <= i < |points| => (t, points[i]))
  }

  function Schedule<T>(book: map<Time, TickerBook<T>>, keys: seq<Time>): (r: seq<(Time, T)>)
    requires forall k :: k in keys ==> k in book
    ensures forall i :: 0 <= i < |r| ==> r[i].0 in keys
    ensures forall i :: 0 <= i < |r| ==> r[i].0 in book && r[i].1 in book[r[i].0].marketData
  {
    if keys == [] then []
    else
      var rest := Schedule(book, keys[1..]);
      var first := Tag(keys[0], book[keys[0]].marketData);
      var r := first + rest;
      assert forall i :: 0 <= i < |rest| ==> rest[i].0 in keys;
      assert forall i :: 0 <= i < |r| ==> r[i].0 in book && r[i].1 in book[r[i].0].marketData by {
        forall i | 0 <= i < |r| ensures r[i].0 in book && r[i].1 in book[r[i].0].marketData {
          if i < |first| {
            assert r[i] == (keys[0], book[keys[0]].marketData[i]);
          } else {
            assert r[i] == rest[i - |first|];
          }
        }
      }
      r
  }

  /** The ticks `generate_signals` visits, tagged with their book timestamp:
      each is one of the points the book holds for that timestamp. */
  function Dispatch<T>(book: map<Time, TickerBook<T>>): (r: seq<(Time, T)>)
    ensures forall i :: 0 <= i < |r| ==> r[i].0 in book && r[i].1 in book[r[i].0].marketData
  {
    Schedule(book, Sorted(book.Keys))
  }

  /** The ticks of tagged ticks, in order. */
  function Untag<T>(d: seq<(Time, T)>): (r: seq<T>)
    ensures |r| == |d|
    ensures forall i :: 0 <= i < |d| ==> r[i] == d[i].1
  {
    seq(|d|, i requires 0 <= i < |d| => d[i].1)
  }

  /** The ticks handed to a strategy, in dispatch order. */
  function Ticks<T>(book: map<Time, TickerBook<T>>): (r: seq<T>)
    ensures |r| == |Dispatch(book)|
    ensures forall i :: 0 <= i < |r| ==> Dispatch(book)[i].0 in book && r[i] in book[Dispatch(book)[i].0].marketData
  {
    Untag(Dispatch(book))
  }

  /** The dispatched ticks that carry timestamp `t`, in dispatch order. */
  function At<T>(d: seq<(Time, T)>, t: Time): seq<T> {
    if d == [] then [] else (if d[0].0 == t then [d[0].1] else []) + At(d[1..], t)
  }

  lemma {:induction false} AtAppend<T>(a: seq<(Time, T)>, b: seq<(Time, T)>, t: Time)
    ensures At(a + b, t) == At(a, t) + At(b, t)
  {
    if a != [] {
      assert (a + b)[0] == a[0];
      assert (a + b)[1..] == a[1..] + b;
      AtAppend(a[1..], b, t);
      var h := if a[0].0 == t then [a[0].1] else [];
      assert At(a + b, t) == h + At(a[1..] + b, t);
      assert At(a, t) == h + At(a[1..], t);
      assert h + (At(a[1..], t) + At(b, t)) == (h + At(a[1..], t)) + At(b, t);
    } else {
      assert a + b == b;
    }
  }

  lemma {:induction false} AtTag<T>(k: Time, points: seq<T>, t: Time)
    ensures At(Tag(k, points), t) == if k == t then points else []
  {
    if points != [] {
      assert Tag(k, points)[1..] == Tag(k, points[1..]);
      AtTag(k, points[1..], t);
    }
  }

  lemma {:induction false} ScheduleAt<T>(book: map<Time, TickerBook<T>>, keys: seq<Time>, t: Time)
    requires forall k :: k in keys ==> k in book
    requires StrictlyIncreasing(keys)
    ensures At(Schedule(book, keys), t) == if t in keys then book[t].marketData else []
  {
    if keys != [] {
      var rest := keys[1..];
      assert StrictlyIncreasing(rest);
      AtAppend(Tag(keys[0], book[keys[0]].marketData), Schedule(book, rest), t);
      AtTag(keys[0], book[keys[0]].marketData, t);
      ScheduleAt(book, rest, t);
      if t == keys[0] {
        assert t !in rest;
      } else {
        assert t in keys <==> t in rest;
      }
    }
  }

  /** Within one timestamp, ticks are dispatched exactly as they arrived;
      timestamps without an entry dispatch nothing. */
  lemma DispatchAt<T>(book: map<Time, TickerBook<T>>, t: Time)
    ensures At(Dispatch(book), t) == PointsOf(book, t)
  {
    ScheduleAt(book, Sorted(book.Keys), t);
  }

  /** Tagged ticks whose timestamps never decrease. */
  predicate Ascending<T>(d: seq<(Time, T)>) {
    forall i, j :: 0 <= i < j < |d| ==> d[i].0 <= d[j].0
  }

  lemma {:induction false} ScheduleAscending<T>(book: map<Time, TickerBook<T>>, keys: seq<Time>)
    requires forall k :: k in keys ==> k in book
    requires StrictlyIncreasing(keys)
    ensures Ascending(Schedule(book, keys))
  {
    if keys != [] {
      var rest := keys[1..];
      assert StrictlyIncreasing(rest);
      ScheduleAscending(book, rest);
      var head := Tag(keys[0], book[keys[0]].marketData);
      var tail := Schedule(book, rest);
      assert forall i :: 0 <= i < |tail| ==> keys[0] < tail[i].0;
      var d := head + tail;
      assert Schedule(book, keys) == d;
      forall i, j | 0 <= i < j < |d| ensures d[i].0 <= d[j].0 {
        if j < |head| {
          assert d[i] == head[i] && d[j] == head[j];
          assert d[i].0 == keys[0] == d[j].0;
        } else if i < |head| {
          assert d[i] == head[i] && d[j] == tail[j - |head|];
          assert d[i].0 == keys[0] < d[j].0;
        } else {
          assert d[i] == tail[i - |head|] && d[j] == tail[j - |head|];
          assert tail[i - |head|].0 <= tail[j - |head|].0;
        }
      }
    }
  }

  /** Ticks are dispatched in ascending timestamp order. */
  lemma DispatchAscending<T>(book: map<Time, TickerBook<T>>)
    ensures Ascending(Dispatch(book))
  {
    assert Dispatch(book) == Schedule(book, Sorted(book.Keys));
    ScheduleAscending(book, Sorted(book.Keys));
  }

  /** Only the ticks, not the orders, of the book decide the dispatch. */
  ghost predicate SameMarketData<T>(a: map<Time, TickerBook<T>>, b: map<Time, TickerBook<T>>) {
    a.Keys == b.Keys && forall t :: t in a ==> a[t].marketData == b[t].marketData
  }

  lemma {:induction false} ScheduleSameData<T>(a: map<Time, TickerBook<T>>, b: map<Time, TickerBook<T>>, keys: seq<Time>)
    requires SameMarketData(a, b)
    requires forall k :: k in keys ==> k in a
    ensures Schedule(a, keys) == Schedule(b, keys)
  {
    if keys != [] {
      ScheduleSameData(a, b, keys[1..]);
    }
  }

  lemma TicksSameData<T>(a: map<Time, TickerBook<T>>, b: map<Time, TickerBook<T>>)
    requires SameMarketData(a, b)
    ensures Ticks(a) == Ticks(b)
  {
    ScheduleSameData(a, b, Sorted(a.Keys));
  }

  // ---------------------------------------------------------------------------
  // Signal generation

  /** `generate_signals` of the engine: the strategy is stepped once per
      tick, in order; the per-tick signal lists are kept in order. */
  function GenerateSignals<S, T>(gen: (S, T) -> (S, seq<Signal>), s: S, ticks: seq<T>): (r: (S, seq<seq<Signal>>))
    ensures |r.1| == |ticks|
    ensures ticks != [] ==> r.1[0] == gen(s, ticks[0]).1
    decreases |ticks|
  {
    if ticks == [] then (s, [])
    else
      var (s1, first) := gen(s, ticks[0]);
      var (s2, rest) := GenerateSignals(gen, s1, ticks[1..]);
      (s2, [first] + rest)
  }

  function Flatten(ss: seq<seq<Signal>>): seq<Signal> {
    if ss == [] then [] else ss[0] + Flatten(ss[1..])
  }

  // ---------------------------------------------------------------------------
  // Processing signals

  /** The order `run` builds from a signal for strategy `name`. */
  function OrderFor(name: string, sig: Signal): (r: Result<Order, OrderError>)
    ensures r.Ok? <==> sig.quantity > 0.0 && sig.price > 0.0 && sig.symbol != ""
    ensures r.Ok? ==> r.value == Order(sig.timestamp, sig.symbol, sig.quantity, sig.price, UNFILLED.Value(), sig.action, name)
    ensures r.Err? ==> r.error != InvalidStatus
  {
    NewOrder(sig.timestamp, sig.symbol, sig.quantity, sig.price, UNFILLED.Value(), sig.action, name)
  }

  /** Whether a signal ends as a filled order against portfolio `p`: it
      builds a valid order, the order is a BUY or SELL, and it is not
      rejected. */
  predicate Fills(p: Portfolio, name: string, sig: Signal) {
    var o := OrderFor(name, sig);
    o.Ok? && IsTrade(o.value) && !Rejects(o.value, p)
  }

  /** The body of `run`'s inner loop, on the strategy's portfolio alone:
      build the order, execute it, and drop the signal on `OrderError` or
      `ExecutionError`. Yields the new portfolio and the order if filled. */
  function Step(p: Portfolio, name: string, sig: Signal): (r: (Portfolio, Option<Order>))
    requires NonNegativePositions(p)
    ensures NonNegativePositions(r.0)
    ensures r.1.Some? <==> Fills(p, name, sig)
    ensures r.1.None? ==> r.0 == p
    ensures r.1.Some? ==> OrderFor(name, sig).Ok? && ExecuteOrder(OrderFor(name, sig).value, p).Ok?
    ensures r.1.Some? ==> r.0 == ExecuteOrder(OrderFor(name, sig).value, p).value.portfolio
    ensures r.1.Some? ==>
      && r.1.value == OrderFor(name, sig).value.(status := FILLED.Value())
      && Valid(r.1.value) && IsTrade(r.1.value) && r.1.value.strategy == name
  {
    match OrderFor(name, sig)
    case Err(_) => (p, None)
    case Ok(o) =>
      match ExecuteOrder(o, p)
      case Err(_) => (p, None)
      case Ok(x) => if IsTrade(o) then (x.portfolio, Some(x.order)) else (p, None)
  }

  /** The accounting of one strategy's signals, ignoring the book: the final
      portfolio and the filled orders in processing order. */
  function Trades(p: Portfolio, name: string, sigs: seq<Signal>): (r: (Portfolio, seq<Order>))
    requires NonNegativePositions(p)
    ensures NonNegativePositions(r.0)
    ensures |r.1| <= |sigs|
    ensures forall o :: o in r.1 ==> Valid(o) && IsTrade(o) && o.status == FILLED.Value() && o.strategy == name
    decreases |sigs|
  {
    if sigs == [] then (p, [])
    else
      var (p1, filled) := Step(p, name, sigs[0]);
      var (p2, rest) := Trades(p1, name, sigs[1..]);
      (p2, (if filled.Some? then [filled.value] else []) + rest)
  }

  /** Every portfolio is free of short positions. */
  predicate Wellformed<T>(e: ExecutionEngine<T>) {
    forall n :: n in e.portfolios ==> NonNegativePositions(e.portfolios[n])
  }

  /** The orders of `os` stamped `t`, in order. */
  function OrdersAt(os: seq<Order>, t: Time): seq<Order> {
    if os == [] then [] else (if os[0].timestamp == t then [os[0]] else []) + OrdersAt(os[1..], t)
  }

  /** `e'` is `e` after strategy `name` filled `fills` and ended with
      portfolio `p`: no other portfolio changed, the log grew by the fills in
      order, and each book entry gained the fills stamped with its timestamp. */
  ghost predicate Recorded<T>(e: ExecutionEngine<T>, name: string, p: Portfolio, fills: seq<Order>, e': ExecutionEngine<T>) {
    && e'.portfolios == e.portfolios[name := p]
    && e'.orders == e.orders + fills
    && e'.book.Keys == e.book.Keys
    && forall t :: t in e.book ==> e'.book[t].orders == e.book[t].orders + OrdersAt(fills, t)
  }

  /** Recording fills in two steps records them all. */
  lemma RecordedTrans<T>(e: ExecutionEngine<T>, name: string, p1: Portfolio, f1: seq<Order>, e1: ExecutionEngine<T>,
                         p2: Portfolio, f2: seq<Order>, e2: ExecutionEngine<T>)
    requires Recorded(e, name, p1, f1, e1) && Recorded(e1, name, p2, f2, e2)
    ensures Recorded(e, name, p2, f1 + f2, e2)
  {
    assert e.orders + f1 + f2 == e.orders + (f1 + f2);
    forall t | t in e.book ensures e2.book[t].orders == e.book[t].orders + OrdersAt(f1 + f2, t) {
      OrdersAtAppend(f1, f2, t);
    }
  }

  lemma {:induction false} OrdersAtAppend(a: seq<Order>, b: seq<Order>, t: Time)
    ensures OrdersAt(a + b, t) == OrdersAt(a, t) + OrdersAt(b, t)
  {
    if a == [] {
      AppendEmpty(a, b);
    } else {
      TailOfAppend(a, b);
      OrdersAtAppend(a[1..], b, t);
      var h := if a[0].timestamp == t then [a[0]] else [];
      AppendAssoc(h, OrdersAt(a[1..], t), OrdersAt(b, t));
    }
  }

  /** One signal of strategy `name`: a fill is recorded in the portfolio,
      the ticker book entry of its timestamp and the global order log. */
  function ProcessSignal<T>(e: ExecutionEngine<T>, name: string, sig: Signal): (r: Result<ExecutionEngine<T>, Fatal>)
    requires name in e.portfolios && Wellformed(e)
    ensures r.Ok? ==> Wellformed(r.value) && r.value.portfolios.Keys == e.portfolios.Keys
    ensures r.Ok? ==> SameMarketData(e.book, r.value.book)
    ensures var st := Step(e.portfolios[name], name, sig);
      && (st.1.None? ==> r == Ok(e))
      && (st.1.Some? ==> (r.Ok? <==> st.1.value.timestamp in e.book))
      && (st.1.Some? && r.Ok? ==> Recorded(e, name, st.0, [st.1.value], r.value))
  {
    var (p, filled) := Step(e.portfolios[name], name, sig);
    match filled
    case None => Ok(e)
    case Some(o) =>
      if o.timestamp in e.book then
        var entry := e.book[o.timestamp];
        Ok(ExecutionEngine(
             e.book[o.timestamp := entry.(orders := entry.orders + [o])],
             e.portfolios[name := p],
             e.orders + [o]))
      else
        Err(MissingBookEntry(o.timestamp))
  }

  /** All signals of one strategy, in order; a fatal error ends the run. */
  function RunStrategy<T>(e: ExecutionEngine<T>, name: string, sigs: seq<Signal>): (r: Result<ExecutionEngine<T>, Fatal>)
    requires name in e.portfolios && Wellformed(e)
    ensures r.Ok? ==> Wellformed(r.value) && r.value.portfolios.Keys == e.portfolios.Keys
    ensures r.Ok? ==> SameMarketData(e.book, r.value.book)
    decreases |sigs|
  {
    if sigs == [] then Ok(e)
    else
      match ProcessSignal(e, name, sigs[0])
      case Err(f) => Err(f)
      case Ok(e1) => RunStrategy(e1, name, sigs[1..])
  }

  /** Running one strategy through the engine is its portfolio-only
      accounting plus bookkeeping: it completes exactly when every fill's
      timestamp has a book entry, and then it records exactly those fills. */
  lemma {:induction false} RunStrategyIsTrades<T>(e: ExecutionEngine<T>, name: string, sigs: seq<Signal>)
    requires name in e.portfolios && Wellformed(e)
    ensures RunStrategy(e, name, sigs).Ok?
            <==> forall o :: o in Trades(e.portfolios[name], name, sigs).1 ==> o.timestamp in e.book
    ensures RunStrategy(e, name, sigs).Ok? ==>
      Recorded(e, name, Trades(e.portfolios[name], name, sigs).0, Trades(e.portfolios[name], name, sigs).1,
               RunStrategy(e, name, sigs).value)
    decreases |sigs|
  {
    var p0 := e.portfolios[name];
    var fills := Trades(p0, name, sigs).1;
    if sigs == [] {
      assert e.portfolios == e.portfolios[name := p0];
      assert e.orders + [] == e.orders;
    } else {
      var step := Step(p0, name, sigs[0]);
      var tail := Trades(step.0, name, sigs[1..]);
      assert Trades(p0, name, sigs).0 == tail.0;
      var r1 := ProcessSignal(e, name, sigs[0]);
      if step.1.None? {
        assert fills == tail.1;
        RunStrategyIsTrades(e, name, sigs[1..]);
      } else {
        var o := step.1.value;
        assert fills == [o] + tail.1;
        if r1.Ok? {
          var e1 := r1.value;
          RunStrategyIsTrades(e1, name, sigs[1..]);
          assert e1.portfolios[name] == step.0;
          if RunStrategy(e, name, sigs).Ok? {
            RecordedTrans(e, name, step.0, [o], e1, tail.0, tail.1, RunStrategy(e, name, sigs).value);
          }
        } else {
          assert o in fills;
        }
      }
    }
  }

  /** The strategies of `run`, visited in declaration order; each one's
      signals are generated over all ticks first, then processed. */
  function RunAll<S, T>(e: ExecutionEngine<T>, strategies: seq<(string, S)>, gen: (S, T) -> (S, seq<Signal>)): (r: Result<ExecutionEngine<T>, Fatal>)
    requires Wellformed(e)
    requires forall i :: 0 <= i < |strategies| ==> strategies[i].0 in e.portfolios
    ensures r.Ok? ==> Wellformed(r.value) && r.value.portfolios.Keys == e.portfolios.Keys
    ensures r.Ok? ==> SameMarketData(e.book, r.value.book)
    decreases |strategies|
  {
    if strategies == [] then Ok(e)
    else
      var (name, s) := strategies[0];
      var signals := Flatten(GenerateSignals(gen, s, Ticks(e.book)).1);
      match RunStrategy(e, name, signals)
      case Err(f) => Err(f)
      case Ok(e1) => RunAll(e1, strategies[1..], gen)
  }

  /** `run`: the global order log is reset, then every strategy is run, so
      the log afterwards holds only this run's fills, whatever it held before. */
  function Run<S, T>(e: ExecutionEngine<T>, strategies: seq<(string, S)>, gen: (S, T) -> (S, seq<Signal>)): (r: Result<ExecutionEngine<T>, Fatal>)
    requires Wellformed(e)
    requires forall i :: 0 <= i < |strategies| ==> strategies[i].0 in e.portfolios
    ensures r.Ok? ==> Wellformed(r.value) && r.value.portfolios.Keys == e.portfolios.Keys
    ensures r.Ok? ==> LogExtends([], r.value.orders, strategies)
  {
    var e0 := e.(orders := []);
    var r := RunAll(e0, strategies, gen);
    if r.Ok? then RunAllLog(e0, strategies, gen); r else r
  }

  // ---------------------------------------------------------------------------
  // Invariants of a run

  /** Every portfolio of the engine is consistent for starting capital `initial`. */
  predicate AllConsistent<T>(e: ExecutionEngine<T>, initial: real) {
    forall n :: n in e.portfolios ==> Consistent(e.portfolios[n], initial)
  }

  lemma {:induction false} TradesConsistent(p: Portfolio, name: string, sigs: seq<Signal>, initial: real)
    requires Consistent(p, initial)
    ensures Consistent(Trades(p, name, sigs).0, initial)
    decreases |sigs|
  {
    if sigs != [] {
      var r := OrderFor(name, sigs[0]);
      if r.Ok? && ExecuteOrder(r.value, p).Ok? {
        ExecutePreservesConsistency(r.value, p, initial);
      }
      TradesConsistent(Step(p, name, sigs[0]).0, name, sigs[1..], initial);
    }
  }

  /** `after` is `before` followed by filled BUY or SELL orders, each owned
      by one of `strategies`. */
  ghost predicate LogExtends<S>(before: seq<Order>, after: seq<Order>, strategies: seq<(string, S)>) {
    && |before| <= |after|
    && (forall i :: 0 <= i < |before| ==> after[i] == before[i])
    && forall i :: |before| <= i < |after| ==>
         && Valid(after[i]) && IsTrade(after[i]) && after[i].status == FILLED.Value()
         && after[i].strategy in Names(strategies)
  }

  /** The first strategy's pass, as `RunAll` performs it. */
  function FirstPass<S, T>(e: ExecutionEngine<T>, strategies: seq<(string, S)>, gen: (S, T) -> (S, seq<Signal>)): Result<ExecutionEngine<T>, Fatal>
    requires Wellformed(e) && strategies != [] && strategies[0].0 in e.portfolios
  {
    RunStrategy(e, strategies[0].0, Flatten(GenerateSignals(gen, strategies[0].1, Ticks(e.book)).1))
  }

  lemma RunAllUnfold<S, T>(e: ExecutionEngine<T>, strategies: seq<(string, S)>, gen: (S, T) -> (S, seq<Signal>))
    requires Wellformed(e) && strategies != []
    requires forall i :: 0 <= i < |strategies| ==> strategies[i].0 in e.portfolios
    requires RunAll(e, strategies, gen).Ok?
    ensures FirstPass(e, strategies, gen).Ok?
    ensures RunAll(e, strategies, gen) == RunAll(FirstPass(e, strategies, gen).value, strategies[1..], gen)
  {
  }

  /** The strategies after the first still have portfolios once the first
      has run. */
  lemma LaterStrategiesRegistered<S>(strategies: seq<(string, S)>, before: map<string, Portfolio>, after: map<string, Portfolio>)
    requires strategies != [] && after.Keys == before.Keys
    requires forall i :: 0 <= i < |strategies| ==> strategies[i].0 in before
    ensures forall i :: 0 <= i < |strategies[1..]| ==> strategies[1..][i].0 in after
  {
    forall i | 0 <= i < |strategies[1..]| ensures strategies[1..][i].0 in after {
      assert strategies[1..][i] == strategies[i + 1];
    }
  }

  /** Replacing one consistent portfolio keeps every portfolio consistent. */
  lemma AllConsistentUpdate<T>(e: ExecutionEngine<T>, e1: ExecutionEngine<T>, name: string, initial: real)
    requires AllConsistent(e, initial) && name in e1.portfolios
    requires e1.portfolios == e.portfolios[name := e1.portfolios[name]]
    requires Consistent(e1.portfolios[name], initial)
    ensures AllConsistent(e1, initial)
  {
  }

  /** Across a run, every portfolio stays consistent. */
  lemma {:induction false} RunAllConsistent<S, T>(e: ExecutionEngine<T>, strategies: seq<(string, S)>, gen: (S, T) -> (S, seq<Signal>), initial: real)
    requires Wellformed(e) && AllConsistent(e, initial)
    requires forall i :: 0 <= i < |strategies| ==> strategies[i].0 in e.portfolios
    requires RunAll(e, strategies, gen).Ok?
    ensures AllConsistent(RunAll(e, strategies, gen).value, initial)
    decreases |strategies|
  {
    if strategies != [] {
      var name := strategies[0].0;
      var signals := Flatten(GenerateSignals(gen, strategies[0].1, Ticks(e.book)).1);
      RunAllUnfold(e, strategies, gen);
      RunStrategyIsTrades(e, name, signals);
      TradesConsistent(e.portfolios[name], name, signals, initial);
      var e1 := FirstPass(e, strategies, gen).value;
      assert e1.portfolios == e.portfolios[name := Trades(e.portfolios[name], name, signals).0];
      AllConsistentUpdate(e, e1, name, initial);
      LaterStrategiesRegistered(strategies, e.portfolios, e1.portfolios);
      RunAllConsistent(e1, strategies[1..], gen, initial);
    }
  }

  /** Fills of the first strategy followed by a log extension by the later
      ones extend the log by all of them. */
  lemma LogGrows<S>(before: seq<Order>, fills: seq<Order>, after: seq<Order>, strategies: seq<(string, S)>)
    requires strategies != []
    requires forall o :: o in fills ==>
      Valid(o) && IsTrade(o) && o.status == FILLED.Value() && o.strategy == strategies[0].0
    requires LogExtends(before + fills, after, strategies[1..])
    ensures LogExtends(before, after, strategies)
  {
    var names := Names(strategies);
    assert names[0] == strategies[0].0;
    forall i | |before| <= i < |after|
      ensures && Valid(after[i]) && IsTrade(after[i]) && after[i].status == FILLED.Value()
              && after[i].strategy in names
    {
      if i < |before + fills| {
        assert after[i] == (before + fills)[i] == fills[i - |before|];
      } else {
        var j :| 0 <= j < |strategies[1..]| && Names(strategies[1..])[j] == after[i].strategy;
        assert names[j + 1] == after[i].strategy;
      }
    }
    forall i | 0 <= i < |before| ensures after[i] == before[i] {
      assert after[i] == (before + fills)[i];
    }
  }

  /** Across a run, the log only grows by filled BUY and SELL orders of the
      strategies that ran. */
  lemma {:induction false} RunAllLog<S, T>(e: ExecutionEngine<T>, strategies: seq<(string, S)>, gen: (S, T) -> (S, seq<Signal>))
    requires Wellformed(e)
    requires forall i :: 0 <= i < |strategies| ==> strategies[i].0 in e.portfolios
    requires RunAll(e, strategies, gen).Ok?
    ensures LogExtends(e.orders, RunAll(e, strategies, gen).value.orders, strategies)
    decreases |strategies|
  {
    if strategies != [] {
      var name := strategies[0].0;
      var signals := Flatten(GenerateSignals(gen, strategies[0].1, Ticks(e.book)).1);
      RunAllUnfold(e, strategies, gen);
      RunStrategyIsTrades(e, name, signals);
      var fills := Trades(e.portfolios[name], name, signals).1;
      var e1 := FirstPass(e, strategies, gen).value;
      assert e1.orders == e.orders + fills;
      LaterStrategiesRegistered(strategies, e.portfolios, e1.portfolios);
      RunAllLog(e1, strategies[1..], gen);
      LogGrows(e.orders, fills, RunAll(e, strategies, gen).value.orders, strategies);
    }
  }

  /** A run from a freshly constructed engine keeps every portfolio
      consistent with the starting capital of 1,000,000 and logs only filled
      BUY and SELL orders. */
  lemma {:induction false} RunFromNewEngine<S, T>(data: seq<(Time, seq<T>)>, strategies: seq<(string, S)>, gen: (S, T) -> (S, seq<Signal>))
    requires Run(NewEngine(data, Names(strategies)), strategies, gen).Ok?
    ensures AllConsistent(Run(NewEngine(data, Names(strategies)), strategies, gen).value, INITIAL_CAPITAL)
    ensures LogExtends([], Run(NewEngine(data, Names(strategies)), strategies, gen).value.orders, strategies)
  {
    var e := NewEngine(data, Names(strategies));
    var e0 := e.(orders := []);
    FreshEngine(data, strategies);
    assert Run(e, strategies, gen) == RunAll(e0, strategies, gen);
    RunAllConsistent(e0, strategies, gen, INITIAL_CAPITAL);
    RunAllLog(e0, strategies, gen);
  }

  /** A constructed engine, with its log reset, has a consistent portfolio
      for every strategy. */
  lemma FreshEngine<S, T>(data: seq<(Time, seq<T>)>, strategies: seq<(string, S)>)
    ensures var e0 := NewEngine(data, Names(strategies)).(orders := []);
      && Wellformed(e0) && AllConsistent(e0, INITIAL_CAPITAL)
      && forall i :: 0 <= i < |strategies| ==> strategies[i].0 in e0.portfolios
  {
    var e0 := NewEngine(data, Names(strategies)).(orders := []);
    forall i | 0 <= i < |strategies| ensures strategies[i].0 in e0.portfolios {
      assert Names(strategies)[i] == strategies[i].0;
    }
    forall n | n in e0.portfolios ensures Consistent(e0.portfolios[n], INITIAL_CAPITAL) {
      assert e0.portfolios[n] == Fresh(INITIAL_CAPITAL);
    }
  }

  /** The strategy names, in declaration order. */
  function Names<S>(strategies: seq<(string, S)>): (r: seq<string>)
    ensures |r| == |strategies|
    ensures forall i :: 0 <= i < |r| ==> r[i] == strategies[i].0
  {
    seq(|strategies|, i requires 0 <= i < |strategies| => strategies[i].0)
  }
}

=== FILE: models.dfy ===
/** The value types of `src/models.py`: ticks, order status and action
    enumerations, the self-validating `Order`, and the signal record that
    strategies hand to the engine. */
module Models {
  import opened Results
  import opened Times

  /** One price observation. A datatype value: none of its fields can be
      reassigned after construction. */
  datatype MarketDataPoint = MarketDataPoint(timestamp: Time, symbol: string, price: real)

  /** The richer daily bar produced by the price loader; only the fields
      the modelled strategies and reports read are kept. */
  datatype PriceBar = PriceBar(timestamp: Time, symbol: string, close: real, adjClose: real, volume: real)

  datatype OrderStatus = UNFILLED | FILLED | CANCELLED {
    /** The string an `Order` stores for this status. */
    function Value(): string {
      match this
      case UNFILLED => "UNFILLED"
      case FILLED => "FILLED"
      case CANCELLED => "CANCELLED"
    }
  }

  datatype OrderAction = BUY | SELL | HOLD {
    /** The string an `Order` or a signal carries for this action. */
    function Value(): string {
      match this
      case BUY => "BUY"
      case SELL => "SELL"
      case HOLD => "HOLD"
    }
  }

  /** Membership in the list of the status enumeration's values. */
  predicate IsStatusValue(s: string) {
    s in {UNFILLED.Value(), FILLED.Value(), CANCELLED.Value()}
  }

  /** A trade instruction. `status` and `action` are kept as the strings
      they were given: the constructor checks the status, never the action. */
  datatype Order = Order(
    timestamp: Time,
    symbol: string,
    quantity: real,
    price: real,
    status: string,
    action: string,
    strategy: string)

  /** The reasons `Order` construction raises `OrderError`. */
  datatype OrderError = NonPositiveQuantity | NonPositivePrice | EmptySymbol | InvalidStatus

  /** What every constructed order satisfies. */
  predicate Valid(o: Order) {
    o.quantity > 0.0 && o.price > 0.0 && o.symbol != "" && IsStatusValue(o.status)
  }

  /** `Order.__init__`: the checks run in the order quantity, price, symbol,
      status, and the first one that fails decides the error. */
  function NewOrder(timestamp: Time, symbol: string, quantity: real, price: real,
                    status: string, action: string, strategy: string): (r: Result<Order, OrderError>)
    ensures r.Ok? <==> quantity > 0.0 && price > 0.0 && symbol != "" && IsStatusValue(status)
    ensures r.Ok? ==> Valid(r.value)
    ensures r.Ok? ==> r.value == Order(timestamp, symbol, quantity, price, status, action, strategy)
    ensures quantity <= 0.0 ==> r == Err(NonPositiveQuantity)
    ensures quantity > 0.0 && price <= 0.0 ==> r == Err(NonPositivePrice)
    ensures quantity > 0.0 && price > 0.0 && symbol == "" ==> r == Err(EmptySymbol)
    ensures r == Err(InvalidStatus) <==> quantity > 0.0 && price > 0.0 && symbol != "" && !IsStatusValue(status)
  {
    if quantity <= 0.0 then Err(NonPositiveQuantity)
    else if price <= 0.0 then Err(NonPositivePrice)
    else if symbol == "" then Err(EmptySymbol)
    else if !IsStatusValue(status) then Err(InvalidStatus)
    else Ok(Order(timestamp, symbol, quantity, price, status, action, strategy))
  }

  /** Rebuilding any valid order from its own fields gives back that order. */
  lemma OrderRoundTrip(o: Order)
    requires Valid(o)
    ensures NewOrder(o.timestamp, o.symbol, o.quantity, o.price, o.status, o.action, o.strategy) == Ok(o)
  {
  }

  /** The action is stored as given, whatever string it is. */
  lemma ActionNotValidated(o: Order, action: string)
    requires Valid(o)
    ensures NewOrder(o.timestamp, o.symbol, o.quantity, o.price, o.status, action, o.strategy)
            == Ok(o.(action := action))
  {
  }

  /** A strategy's proposed trade: the five-field tuple the engine unpacks. */
  datatype Signal = Signal(timestamp: Time, action: string, symbol: string, quantity: real, price: real)

  /** The raw tuples strategies return: the four-field form lacks a timestamp. */
  datatype SignalTuple =
    | Quad(action: string, symbol: string, quantity: real, price: real)
    | Quint(timestamp: Time, action: string, symbol: string, quantity: real, price: real)

  /** `for t, action, symbol, quantity, price in signal`: only a five-field
      tuple unpacks; a four-field one raises an uncaught `ValueError`. */
  function Unpack(t: SignalTuple): (r: Option<Signal>)
    ensures r.Some? <==> t.Quint?
    ensures r.Some? ==> Pack(r.value) == t
  {
    match t
    case Quad(_, _, _, _) => None
    case Quint(ts, a, s, q, p) => Some(Signal(ts, a, s, q, p))
  }

  /** A signal record as the five-field tuple. */
  function Pack(s: Signal): (t: SignalTuple)
    ensures t.Quint?
  {
    Quint(s.timestamp, s.action, s.symbol, s.quantity, s.price)
  }

  /** Packing and unpacking a signal are inverse. */
  lemma UnpackPack(s: Signal)
    ensures Unpack(Pack(s)) == Some(s)
  {
  }
}

=== FILE: reporting.dfy ===
/** `trace_portfolio_log` of `src/reporting.py`: replay each strategy's
    filled orders into a fresh portfolio and log its state after each one. */
module Reporting {
  import opened Results
  import opened Models
  import opened Accounting
  import Engine

  /** One log entry: the state after replaying `lastOrder`. */
  datatype Snapshot = Snapshot(capital: real, positions: map<string, Position>, earnings: real, lastOrder: Order)

  /** The errors a replay raises: a SELL of a symbol never bought
      (`KeyError`), or a BUY that leaves a zero quantity to divide by
      (`ZeroDivisionError`). */
  datatype ReplayError = UnknownPosition(symbol: string) | ZeroQuantity(symbol: string)

  /** The portfolio a snapshot records. */
  function StateOf(s: Snapshot): (p: Portfolio)
    ensures p.capital == s.capital && p.positions == s.positions && p.earnings == s.earnings
  {
    Portfolio(s.capital, s.positions, s.earnings)
  }

  /** The body of the replay loop. Unlike `execute_order` it checks no
      capital or quantity and keeps the average cost unrounded. */
  function Replay(p: Portfolio, o: Order): (r: Result<Portfolio, ReplayError>)
    ensures r.Err? <==>
      || (IsBuy(o) && Held(p, o.symbol) + o.quantity == 0.0)
      || (IsSell(o) && o.symbol !in p.positions)
    ensures r.Err? && IsBuy(o) ==> r.error == ZeroQuantity(o.symbol)
    ensures r.Err? && IsSell(o) ==> r.error == UnknownPosition(o.symbol)
    ensures r.Ok? && !IsTrade(o) ==> r.value == p
    ensures r.Ok? ==> r.value.earnings - r.value.capital == p.earnings - p.capital
    ensures r.Ok? ==> OthersUnchanged(p, r.value, o.symbol)
    ensures r.Ok? && IsTrade(o) ==> o.symbol in r.value.positions
    ensures r.Ok? && IsBuy(o) ==>
      && r.value.capital == p.capital - Notional(o)
      && Held(r.value, o.symbol) == Held(p, o.symbol) + o.quantity
      && AvgCost(r.value, o.symbol) * Held(r.value, o.symbol)
         == AvgCost(p, o.symbol) * Held(p, o.symbol) + Notional(o)
    ensures r.Ok? && IsSell(o) ==>
      && r.value.capital == p.capital + Notional(o)
      && Held(r.value, o.symbol) == Held(p, o.symbol) - o.quantity
      && AvgCost(r.value, o.symbol)
         == (if Held(r.value, o.symbol) == 0.0 then 0.0 else AvgCost(p, o.symbol))
  {
    var amount := Notional(o);
    if IsBuy(o) then
      var quantity := Held(p, o.symbol) + o.quantity;
      if quantity == 0.0 then Err(ZeroQuantity(o.symbol))
      else
        var total := AvgCost(p, o.symbol) * Held(p, o.symbol) + amount;
        Ok(Portfolio(p.capital - amount, p.positions[o.symbol := Position(quantity, total / quantity)], p.earnings - amount))
    else if IsSell(o) then
      if o.symbol !in p.positions then Err(UnknownPosition(o.symbol))
      else
        var pos := p.positions[o.symbol];
        var quantity := pos.quantity - o.quantity;
        var avg := if quantity == 0.0 then 0.0 else pos.avgPrice;
        Ok(Portfolio(p.capital + amount, p.positions[o.symbol := Position(quantity, avg)], p.earnings + amount))
    else
      Ok(p)
  }

  /** The log of one strategy: a snapshot after every order, or the first
      error. */
  function Trace(p: Portfolio, orders: seq<Order>): (r: Result<seq<Snapshot>, ReplayError>)
    ensures r.Ok? ==> |r.value| == |orders|
    ensures r.Ok? ==> forall i :: 0 <= i < |orders| ==> r.value[i].lastOrder == orders[i]
    ensures r.Ok? ==> forall i :: 0 <= i < |orders| ==>
      r.value[i].earnings - r.value[i].capital == p.earnings - p.capital
    ensures orders != [] ==> (Replay(p, orders[0]).Err? ==> r == Err(Replay(p, orders[0]).error))
    ensures orders != [] && r.Ok? ==> Replay(p, orders[0]).Ok? && StateOf(r.value[0]) == Replay(p, orders[0]).value
    ensures r.Ok? ==> forall i :: 0 < i < |orders| ==> Replay(StateOf(r.value[i - 1]), orders[i]) == Ok(StateOf(r.value[i]))
    ensures orders != [] && Replay(p, orders[0]).Ok? ==>
      (r.Err? <==> Trace(Replay(p, orders[0]).value, orders[1..]).Err?)
    ensures orders != [] && Replay(p, orders[0]).Ok? && r.Err? ==>
      r.error == Trace(Replay(p, orders[0]).value, orders[1..]).error
    decreases |orders|
  {
    if orders == [] then Ok([])
    else
      match Replay(p, orders[0])
      case Err(e) => Err(e)
      case Ok(q) =>
        match Trace(q, orders[1..])
        case Err(e) => Err(e)
        case Ok(rest) =>
          var snap := Snapshot(q.capital, q.positions, q.earnings, orders[0]);
          TraceCons(p, orders, q, snap, rest);
          TraceChain(q, orders, snap, rest);
          Ok([snap] + rest)
  }

  /** The snapshot of the first order, followed by the log of the rest,
      names every order and keeps earnings minus capital. */
  lemma TraceCons(p: Portfolio, orders: seq<Order>, q: Portfolio, snap: Snapshot, rest: seq<Snapshot>)
    requires orders != [] && Replay(p, orders[0]) == Ok(q)
    requires snap == Snapshot(q.capital, q.positions, q.earnings, orders[0])
    requires |rest| == |orders| - 1
    requires forall i :: 0 <= i < |orders[1..]| ==> rest[i].lastOrder == orders[1..][i]
    requires forall i :: 0 <= i < |orders[1..]| ==> rest[i].earnings - rest[i].capital == q.earnings - q.capital
    ensures forall i :: 0 <= i < |orders| ==> ([snap] + rest)[i].lastOrder == orders[i]
    ensures forall i :: 0 <= i < |orders| ==>
      ([snap] + rest)[i].earnings - ([snap] + rest)[i].capital == p.earnings - p.capital
  {
    var all := [snap] + rest;
    forall i | 0 < i < |orders| ensures all[i].lastOrder == orders[i] && all[i].earnings - all[i].capital == p.earnings - p.capital {
      assert all[i] == rest[i - 1] && orders[1..][i - 1] == orders[i];
    }
  }

  /** The snapshot of the first order, followed by the log of the rest,
      replays each order from the state after the one before. */
  lemma TraceChain(q: Portfolio, orders: seq<Order>, snap: Snapshot, rest: seq<Snapshot>)
    requires orders != [] && StateOf(snap) == q
    requires |rest| == |orders| - 1
    requires |orders| > 1 ==> Replay(q, orders[1]) == Ok(StateOf(rest[0]))
    requires forall i :: 0 < i < |orders| - 1 ==> Replay(StateOf(rest[i - 1]), orders[1..][i]) == Ok(StateOf(rest[i]))
    ensures forall i :: 0 < i < |orders| ==> Replay(StateOf(([snap] + rest)[i - 1]), orders[i]) == Ok(StateOf(([snap] + rest)[i]))
  {
    var all := [snap] + rest;
    forall i | 0 < i < |orders| ensures Replay(StateOf(all[i - 1]), orders[i]) == Ok(StateOf(all[i])) {
      assert all[i] == rest[i - 1];
      if i > 1 {
        assert all[i - 1] == rest[i - 2];
        assert orders[1..][i - 1] == orders[i];
      }
    }
  }

  /** The strategy names of a log request. */
  function Names(byStrategy: seq<(string, seq<Order>)>): set<string> {
    set i | 0 <= i < |byStrategy| :: byStrategy[i].0
  }

  /** The keys of a dictionary are distinct. */
  predicate DistinctNames(byStrategy: seq<(string, seq<Order>)>) {
    forall i, j :: 0 <= i < j < |byStrategy| ==> byStrategy[i].0 != byStrategy[j].0
  }

  /** `trace_portfolio_log`, over the dictionary's items in iteration order:
      every strategy starts from `initial` capital, no positions and zero
      earnings. */
  function TracePortfolioLog(byStrategy: seq<(string, seq<Order>)>, initial: real): (r: Result<map<string, seq<Snapshot>>, ReplayError>)
    requires DistinctNames(byStrategy)
    ensures r.Err? <==> exists i :: 0 <= i < |byStrategy| && Fails(byStrategy[i].1, initial)
    ensures r.Err? ==> exists i :: FailsFirstWith(byStrategy, initial, i, r.error)
    ensures r.Ok? ==> r.value.Keys == Names(byStrategy)
    ensures r.Ok? ==> forall i :: 0 <= i < |byStrategy| ==> Logged(r.value, byStrategy[i], initial)
    decreases |byStrategy|
  {
    if byStrategy == [] then Ok(map[])
    else
      var (name, orders) := byStrategy[0];
      var rest := byStrategy[1..];
      DistinctTail(byStrategy);
      match Trace(Fresh(initial), orders)
      case Err(e) =>
        assert FailsFirstWith(byStrategy, initial, 0, e);
        Err(e)
      case Ok(log) =>
        match TracePortfolioLog(rest, initial)
        case Err(e) =>
          FailsFirstLater(byStrategy, initial, e);
          Err(e)
        case Ok(m) =>
          LoggedCons(byStrategy, initial, log, m);
          Ok(m[name := log])
  }

  /** The names after the first are distinct and differ from the first. */
  lemma DistinctTail(byStrategy: seq<(string, seq<Order>)>)
    requires byStrategy != [] && DistinctNames(byStrategy)
    ensures DistinctNames(byStrategy[1..])
    ensures forall i :: 0 <= i < |byStrategy[1..]| ==> byStrategy[1..][i].0 != byStrategy[0].0
  {
    forall i | 0 <= i < |byStrategy[1..]| ensures byStrategy[1..][i].0 != byStrategy[0].0 {
      assert byStrategy[1..][i] == byStrategy[i + 1];
    }
    forall i, j | 0 <= i < j < |byStrategy[1..]| ensures byStrategy[1..][i].0 != byStrategy[1..][j].0 {
      assert byStrategy[1..][i] == byStrategy[i + 1] && byStrategy[1..][j] == byStrategy[j + 1];
    }
  }

  /** When the first item replays and a later one fails first, that failure
      is the first of the whole request. */
  lemma FailsFirstLater(byStrategy: seq<(string, seq<Order>)>, initial: real, e: ReplayError)
    requires byStrategy != [] && !Fails(byStrategy[0].1, initial)
    requires exists i :: FailsFirstWith(byStrategy[1..], initial, i, e)
    ensures exists i :: FailsFirstWith(byStrategy, initial, i, e)
    ensures exists i :: 0 <= i < |byStrategy| && Fails(byStrategy[i].1, initial)
  {
    var i :| FailsFirstWith(byStrategy[1..], initial, i, e);
    assert byStrategy[1..][i] == byStrategy[i + 1];
    forall j | 0 <= j < i + 1 ensures !Fails(byStrategy[j].1, initial) {
      if j > 0 {
        assert byStrategy[1..][j - 1] == byStrategy[j];
      }
    }
    assert FailsFirstWith(byStrategy, initial, i + 1, e);
  }

  /** Adding the first item's log to the log of the others logs every item. */
  lemma LoggedCons(byStrategy: seq<(string, seq<Order>)>, initial: real, log: seq<Snapshot>, m: map<string, seq<Snapshot>>)
    requires byStrategy != []
    requires forall i :: 0 <= i < |byStrategy[1..]| ==> byStrategy[1..][i].0 != byStrategy[0].0
    requires Trace(Fresh(initial), byStrategy[0].1) == Ok(log)
    requires m.Keys == Names(byStrategy[1..])
    requires forall i :: 0 <= i < |byStrategy[1..]| ==> Logged(m, byStrategy[1..][i], initial)
    requires !exists i :: 0 <= i < |byStrategy[1..]| && Fails(byStrategy[1..][i].1, initial)
    ensures m[byStrategy[0].0 := log].Keys == Names(byStrategy)
    ensures forall i :: 0 <= i < |byStrategy| ==> Logged(m[byStrategy[0].0 := log], byStrategy[i], initial)
    ensures !exists i :: 0 <= i < |byStrategy| && Fails(byStrategy[i].1, initial)
  {
    NamesCons(byStrategy);
    LoggedAll(byStrategy, initial, log, m);
    NoneFails(byStrategy, initial, log);
  }

  lemma LoggedAll(byStrategy: seq<(string, seq<Order>)>, initial: real, log: seq<Snapshot>, m: map<string, seq<Snapshot>>)
    requires byStrategy != []
    requires forall i :: 0 <= i < |byStrategy[1..]| ==> byStrategy[1..][i].0 != byStrategy[0].0
    requires Trace(Fresh(initial), byStrategy[0].1) == Ok(log)
    requires forall i :: 0 <= i < |byStrategy[1..]| ==> Logged(m, byStrategy[1..][i], initial)
    ensures forall i :: 0 <= i < |byStrategy| ==> Logged(m[byStrategy[0].0 := log], byStrategy[i], initial)
  {
    var rest := byStrategy[1..];
    var r := m[byStrategy[0].0 := log];
    forall i | 0 <= i < |byStrategy| ensures Logged(r, byStrategy[i], initial) {
      if i > 0 {
        assert byStrategy[i] == rest[i - 1];
        LoggedKept(m, r, rest[i - 1], initial);
      }
    }
  }

  lemma NoneFails(byStrategy: seq<(string, seq<Order>)>, initial: real, log: seq<Snapshot>)
    requires byStrategy != []
    requires Trace(Fresh(initial), byStrategy[0].1) == Ok(log)
    requires !exists i :: 0 <= i < |byStrategy[1..]| && Fails(byStrategy[1..][i].1, initial)
    ensures !exists i :: 0 <= i < |byStrategy| && Fails(byStrategy[i].1, initial)
  {
    var rest := byStrategy[1..];
    forall i | 0 <= i < |byStrategy| ensures !Fails(byStrategy[i].1, initial) {
      if i > 0 {
        assert byStrategy[i] == rest[i - 1];
      }
    }
  }

  /** A log entry survives the addition of another strategy's entry. */
  lemma LoggedKept(m: map<string, seq<Snapshot>>, r: map<string, seq<Snapshot>>, item: (string, seq<Order>), initial: real)
    requires Logged(m, item, initial)
    requires item.0 in r && r[item.0] == m[item.0]
    ensures Logged(r, item, initial)
  {
  }

  /** Replaying `orders` from a fresh portfolio raises. */
  predicate Fails(orders: seq<Order>, initial: real) {
    Trace(Fresh(initial), orders).Err?
  }

  /** Item `i` is the first of the request whose replay fails, and it fails
      with `e`: the exception `trace_portfolio_log` propagates. */
  predicate FailsFirstWith(byStrategy: seq<(string, seq<Order>)>, initial: real, i: int, e: ReplayError) {
    && 0 <= i < |byStrategy|
    && Trace(Fresh(initial), byStrategy[i].1) == Err(e)
    && forall j :: 0 <= j < i ==> !Fails(byStrategy[j].1, initial)
  }

  /** `log` holds the replay of `item`'s orders under its strategy's name. */
  predicate Logged(log: map<string, seq<Snapshot>>, item: (string, seq<Order>), initial: real) {
    item.0 in log && Trace(Fresh(initial), item.1) == Ok(log[item.0])
  }

  lemma NamesCons(byStrategy: seq<(string, seq<Order>)>)
    requires byStrategy != []
    ensures Names(byStrategy) == {byStrategy[0].0} + Names(byStrategy[1..])
  {
    forall n | n in Names(byStrategy) ensures n in {byStrategy[0].0} + Names(byStrategy[1..]) {
      var i :| 0 <= i < |byStrategy| && byStrategy[i].0 == n;
      if i > 0 { assert byStrategy[1..][i - 1].0 == n; }
    }
    forall n | n in Names(byStrategy[1..]) ensures n in Names(byStrategy) {
      var i :| 0 <= i < |byStrategy[1..]| && byStrategy[1..][i].0 == n;
      assert byStrategy[i + 1].0 == n;
    }
  }

  // ---------------------------------------------------------------------------
  // The log reproduces the engine's accounting

  /** Two portfolios with the same capital, earnings, symbols and
      quantities; only the average costs may differ. */
  predicate Agrees(q: Portfolio, p: Portfolio) {
    && q.capital == p.capital
    && q.earnings == p.earnings
    && q.positions.Keys == p.positions.Keys
    && forall s :: s in p.positions ==> s in q.positions && q.positions[s].quantity == p.positions[s].quantity
  }

  /** Replaying an order the engine filled reproduces the engine's step. */
  lemma ReplayAgrees(o: Order, p: Portfolio, q: Portfolio)
    requires o.quantity > 0.0 && NonNegativePositions(p)
    requires IsTrade(o) && ExecuteOrder(o, p).Ok?
    requires Agrees(q, p)
    ensures Replay(q, o.(status := FILLED.Value())).Ok?
    ensures Agrees(Replay(q, o.(status := FILLED.Value())).value, ExecuteOrder(o, p).value.portfolio)
  {
    var f := o.(status := FILLED.Value());
    FilledAlike(o);
    assert Held(q, o.symbol) == Held(p, o.symbol);
    var r := Replay(q, f);
    assert r.Ok?;
    var x := ExecuteOrder(o, p).value.portfolio;
    var y := r.value;
    assert y.earnings - y.capital == q.earnings - q.capital;
    if IsBuy(o) {
      assert y.capital == q.capital - Notional(o) && x.capital == p.capital - Notional(o);
    } else {
      assert y.capital == q.capital + Notional(o) && x.capital == p.capital + Notional(o);
    }
    AgreesAfter(q, p, y, x, o.symbol);
  }

  /** Filling an order changes nothing the replay reads. */
  lemma FilledAlike(o: Order)
    ensures var f := o.(status := FILLED.Value());
      && IsBuy(f) == IsBuy(o) && IsSell(f) == IsSell(o) && f.symbol == o.symbol
      && f.quantity == o.quantity && Notional(f) == Notional(o)
  {
  }

  /** Agreement survives two steps that change the same symbol's quantity
      alike, move capital and earnings alike, and touch nothing else. */
  lemma AgreesAfter(q: Portfolio, p: Portfolio, y: Portfolio, x: Portfolio, symbol: string)
    requires Agrees(q, p)
    requires y.capital == x.capital && y.earnings == x.earnings
    requires OthersUnchanged(q, y, symbol) && OthersUnchanged(p, x, symbol)
    requires symbol in y.positions && symbol in x.positions
    requires Held(y, symbol) == Held(x, symbol)
    ensures Agrees(y, x)
  {
    assert y.positions.Keys == x.positions.Keys by {
      assert y.positions.Keys == (q.positions.Keys - {symbol}) + {symbol};
      assert x.positions.Keys == (p.positions.Keys - {symbol}) + {symbol};
    }
    forall s | s in x.positions ensures s in y.positions && y.positions[s].quantity == x.positions[s].quantity {
      if s == symbol {
        assert Held(y, s) == y.positions[s].quantity && Held(x, s) == x.positions[s].quantity;
      } else {
        assert s in x.positions.Keys - {symbol};
        assert s in p.positions && s in q.positions;
        assert x.positions[s] == p.positions[s] && y.positions[s] == q.positions[s];
      }
    }
  }

  /** The replay of `orders` from `q` succeeds and, if any order was
      replayed, its last snapshot agrees with `p`. */
  predicate EndsAgreeing(q: Portfolio, orders: seq<Order>, p: Portfolio) {
    && Trace(q, orders).Ok?
    && (orders != [] ==> Agrees(StateOf(Trace(q, orders).value[|orders| - 1]), p))
  }

  lemma EndsAgreeingCons(q: Portfolio, o: Order, rest: seq<Order>, p: Portfolio)
    requires Replay(q, o).Ok?
    requires EndsAgreeing(Replay(q, o).value, rest, p)
    requires rest == [] ==> Agrees(Replay(q, o).value, p)
    ensures EndsAgreeing(q, [o] + rest, p)
  {
    var q1 := Replay(q, o).value;
    var orders := [o] + rest;
    assert orders[0] == o && orders[1..] == rest;
    var log := Trace(q1, rest).value;
    assert Trace(q, orders) == Ok([Snapshot(q1.capital, q1.positions, q1.earnings, o)] + log);
  }

  /** The log of the fills the engine records for one strategy (`Trades`)
      replays without error, and its last entry agrees with the engine's
      final portfolio for that strategy. */
  lemma {:induction false} TraceOfTrades(q: Portfolio, p: Portfolio, name: string, sigs: seq<Signal>)
    requires NonNegativePositions(p) && Agrees(q, p)
    ensures EndsAgreeing(q, Engine.Trades(p, name, sigs).1, Engine.Trades(p, name, sigs).0)
    decreases |sigs|
  {
    if sigs != [] {
      var step := Engine.Step(p, name, sigs[0]);
      var tail := Engine.Trades(step.0, name, sigs[1..]);
      assert Engine.Trades(p, name, sigs).0 == tail.0;
      if step.1.None? {
        assert Engine.Trades(p, name, sigs).1 == tail.1;
        TraceOfTrades(q, step.0, name, sigs[1..]);
      } else {
        var o := Engine.OrderFor(name, sigs[0]).value;
        var f := step.1.value;
        assert Engine.Trades(p, name, sigs).1 == [f] + tail.1;
        ReplayAgrees(o, p, q);
        var q1 := Replay(q, f).value;
        TraceOfTrades(q1, step.0, name, sigs[1..]);
        if tail.1 == [] {
          TradesWithoutFills(step.0, name, sigs[1..]);
        }
        EndsAgreeingCons(q, f, tail.1, tail.0);
      }
    }
  }

  /** A run of signals that fills nothing leaves the portfolio alone. */
  lemma {:induction false} TradesWithoutFills(p: Portfolio, name: string, sigs: seq<Signal>)
    requires NonNegativePositions(p)
    requires Engine.Trades(p, name, sigs).1 == []
    ensures Engine.Trades(p, name, sigs).0 == p
    decreases |sigs|
  {
    if sigs != [] {
      var step := Engine.Step(p, name, sigs[0]);
      assert step.1.None?;
      TradesWithoutFills(p, name, sigs[1..]);
    }
  }

  /** For one strategy started at `initial`, the log of its fills ends in
      the engine's capital, earnings and quantities. */
  lemma FreshTraceOfTrades(initial: real, name: string, sigs: seq<Signal>)
    ensures EndsAgreeing(Fresh(initial), Engine.Trades(Fresh(initial), name, sigs).1, Engine.Trades(Fresh(initial), name, sigs).0)
  {
    TraceOfTrades(Fresh(initial), Fresh(initial), name, sigs);
  }
}

=== FILE: results.dfy ===
/** Failure-carrying values: the model's stand-in for the exceptions the
    backtester raises and catches. */
module Results {

  /** A value or the error that was raised instead of producing it. */
  datatype Result<+T, +E> = Ok(value: T) | Err(error: E)

  /** A value that may be absent. */
  datatype Option<+T> = None | Some(value: T)
}

=== FILE: seqs.dfy ===
/** Facts about sequence concatenation, proved once for any element type so
    that the filters over orders and signals need not re-derive them. */
module Seqs {

  lemma TailOfAppend<X>(a: seq<X>, b: seq<X>)
    requires a != []
    ensures (a + b)[0] == a[0] && (a + b)[1..] == a[1..] + b
  {
  }

  lemma AppendAssoc<X>(a: seq<X>, b: seq<X>, c: seq<X>)
    ensures a + (b + c) == (a + b) + c
  {
  }

  lemma AppendEmpty<X>(a: seq<X>, b: seq<X>)
    requires a == []
    ensures a + b == b
  {
  }
}

=== FILE: times.dfy ===
/** Instants and the ascending enumeration of a set of them (Python's
    `sorted` over the keys of a timestamp-keyed dictionary). */
module Times {

  /** An instant on the backtest's clock. Only its total order matters. */
  type Time = int

  predicate StrictlyIncreasing(s: seq<Time>) {
    forall i, j :: 0 <= i < j < |s| ==> s[i] < s[j]
  }

  /** Every non-empty finite set of instants has an earliest element. */
  lemma {:induction false} HasLeast(s: set<Time>)
    requires s != {}
    ensures exists m :: m in s && forall y :: y in s ==> m <= y
  {
    if forall y :: y !in s { assert false; }
    var x :| x in s;
    var rest := s - {x};
    if forall y :: y in s ==> y == x {
      assert x in s && forall y :: y in s ==> x <= y;
    } else {
      var z :| z in s && z != x;
      assert z in rest;
      HasLeast(rest);
      var m :| m in rest && forall y :: y in rest ==> m <= y;
      var least := if x < m then x else m;
      assert forall y :: y in s ==> y == x || y in rest;
      assert least in s && forall y :: y in s ==> least <= y;
    }
  }

  /** The earliest instant of a non-empty set. */
  function Least(s: set<Time>): (m: Time)
    requires s != {}
    ensures m in s
    ensures forall y :: y in s ==> m <= y
  {
    HasLeast(s);
    var m :| m in s && forall y :: y in s ==> m <= y;
    m
  }

  /** The instants of `s`, each once, earliest first. */
  function Sorted(s: set<Time>): (r: seq<Time>)
    ensures StrictlyIncreasing(r)
    ensures forall t :: t in r <==> t in s
    ensures forall i :: 0 <= i < |r| ==> r[i] in s
    ensures |r| == |s|
    decreases |s|
  {
    if s == {} then []
    else
      var m := Least(s);
      var rest := Sorted(s - {m});
      SortedCons(s, m, rest);
      [m] + rest
  }

  /** The least instant followed by the others in order enumerates the set. */
  lemma SortedCons(s: set<Time>, m: Time, rest: seq<Time>)
    requires m in s && forall y :: y in s ==> m <= y
    requires StrictlyIncreasing(rest)
    requires forall t :: t in rest <==> t in s - {m}
    requires |rest| == |s - {m}|
    ensures StrictlyIncreasing([m] + rest)
    ensures forall t :: t in [m] + rest <==> t in s
    ensures forall i :: 0 <= i < |[m] + rest| ==> ([m] + rest)[i] in s
    ensures |[m] + rest| == |s|
  {
    var r := [m] + rest;
    forall j | 0 <= j < |rest| ensures rest[j] in s - {m} {
      assert rest[j] in rest;
    }
    forall i, j | 0 <= i < j < |r| ensures r[i] < r[j] {
      assert r[j] == rest[j - 1];
      if i > 0 { assert r[i] == rest[i - 1]; }
    }
    forall i | 0 <= i < |r| ensures r[i] in s {
      if i > 0 { assert r[i] == rest[i - 1]; }
    }
  }
}
